=== FILE: README.md ===
# LTI Advantage Tool — a Dafny model of its core

The LTI Advantage Tool is an ASP.NET Core sample that acts as an LTI 1.3 *tool*. Learning platforms launch it through OpenID Connect third-party-initiated login (section 4 of OpenID Connect Core 1.0). The id_token comes back by the OAuth 2.0 Form Post Response Mode. The tool then calls the platform's Assignment and Grade Services and Names and Role Provisioning Services with an access token. It gets that token by the client-credentials grant (section 4.4 of RFC 6749), authenticating with a signed JWT (section 2.2 of RFC 7523). It also publishes its own keys as a JWK Set (section 5 of RFC 7517) and an OpenID Connect Discovery 1.0 document. Owner-scoped pages register platforms and clients.

This project models that core as pure Dafny functions over immutable data:

- `StateStore`: the nonce/state table (`StateDbContext`).
- `OidcLogin`: the login-initiation handler.
- `Jwt`, `Launch` and `LaunchLegacy`: launch validation, in the current page and in the earlier snapshot.
- `AccessToken` and `TokenRequest`: the access-token service and the token request's form fields.
- `LineItems`: the line-items view component.
- `Jwks` and `Discovery`: the two well-known endpoints.
- `Catalog`: the deep-linking catalog.
- `Registry`, `Platforms`, `Clients` and `ClientKeys`: the registration pages.

In the code, a C# `null` is `Common.Option.None`. A database table is `Records.Table<T>`, a map from primary key to row. Every handler returns its outcome together with the table it leaves behind.

Everything the code delegates to a library or the network is a function parameter of the model:

- JWT parsing and RS256 signature checks;
- whether a stored private key parses as PEM, and base64url;
- `Uri` parsing;
- HTTP GETs and discovery;
- the clock and random values.

The model states its properties over all possible behaviours of those parameters.

The model follows the code, including where it departs from what an LTI 1.3 tool is expected to check:

- **No nonce lookup at launch.** Neither launch page takes the nonce out of the state table, so a launch is never tied to a login. The page only requires a single non-empty `nonce` claim. See `Launch.NonceValueIgnored`.
- **Issuer and audience are not looked up.** The valid issuer is the token's own `iss` (`Launch.AnyIssuerAccepted`). The valid audience is the request's display URL, not a registered client id.
- **A token without `iss` is not refused as such.** `JwtSecurityToken.Issuer` is never null (`Jwt.IssuerOf`), so the page's null test of the issuer never fires. An empty issuer goes on to the nonce test and then fails validation (`Launch.LaunchGateOrder`).
- **The deep-linking response is not signed.** It is written to debug output, and the browser is redirected to the return URL, not form-posted.
- **Login input is checked for whitespace.** Login parameters are refused when null or whitespace (`string.IsNullOrWhiteSpace`), not only when empty.

## Model

| member | source | states |
|---|---|---|
| StateStore.AddState | src/Data/StateDbContext.cs:12-16 | the new id maps to the given value, every other row is unchanged, and the table grows by one |
| StateStore.GetState | src/Data/StateDbContext.cs:18-28 | a row is returned exactly when its id is present; afterwards the id is absent and all other rows are unchanged; a missing id leaves the table untouched |
| StateStore.AddThenGet | src/Data/StateDbContext.cs:12-28 | taking what was just added returns that row and restores the table |
| StateStore.GetIsSingleUse | src/Data/StateDbContext.cs:18-28 | a row once taken cannot be taken again |
| StateStore.TakesBoundedByAdds | src/Data/StateDbContext.cs:12-28 | over any run of adds and takes, an id is found no more often than it was added, plus one if it was there at the start |
| Records.FindByIssuer | src/Pages/OidcLogin.cshtml.cs:90-95 | no platform is found exactly when none has the issuer; a found platform is a registered one with that issuer |
| Records.FindByIssuerUnique | src/Pages/Platforms/Create.cshtml.cs:33-37 | when issuers are unique, the lookup returns the one platform registered under that issuer |
| OidcLogin.Login | src/Pages/OidcLogin.cshtml.cs:63-153 | a refused login leaves the state table unchanged; a redirect stores exactly one new row, nonce to state, and the request carries that nonce and state |
| OidcLogin.LoginGateOrder | src/Pages/OidcLogin.cshtml.cs:65-87 | a blank iss, login_hint, lti_message_hint or target_link_uri is refused in that order, whatever platforms are registered |
| OidcLogin.LoginIssuerAndTargetChecks | src/Pages/OidcLogin.cshtml.cs:89-109 | with all four present: an unknown issuer, then a target that is not absolute, then a target on another host is refused; the login redirects exactly when all three checks pass |
| OidcLogin.LoginRedirectContents | src/Pages/OidcLogin.cshtml.cs:122-149 | the redirect goes to the platform's authorize URL, asks for id_token by form_post with scope openid and prompt none, uses the target as redirect_uri on the tool's own host, and forwards both hints |
| OidcLogin.QueryNames | src/Pages/OidcLogin.cshtml.cs:122-149 | the authorization query holds exactly the ten parameter names |
| OidcLogin.QueryAddressesTool | src/Pages/OidcLogin.cshtml.cs:125-130 | the query's client_id and redirect_uri are the request's |
| OidcLogin.QueryResponse | src/Pages/OidcLogin.cshtml.cs:126-129 | the query's response_type and response_mode are the request's |
| OidcLogin.QueryScopeAndPrompt | src/Pages/OidcLogin.cshtml.cs:133-145 | the query's scope and prompt are the request's |
| OidcLogin.QueryCarriesCorrelation | src/Pages/OidcLogin.cshtml.cs:136-142 | the query's state and nonce are the stored pair |
| OidcLogin.QueryCarriesHints | src/Pages/OidcLogin.cshtml.cs:139-148 | the query's login_hint and lti_message_hint are forwarded unchanged |
| Jwt.Values | src/Pages/Tool.cshtml.cs:47 | a value is listed exactly when a claim of that name carries it |
| Jwt.ValuesRepeated | src/Pages/Tool.cshtml.cs:47 | two or more values are found exactly when the claim name occurs twice |
| Jwt.ValuesNonEmpty | src/Pages/Tool.cshtml.cs:47 | some value is found exactly when a claim of that name exists |
| Jwt.SingleClaim | src/Pages/Tool.cshtml.cs:47 | `SingleOrDefault` over the claims of a name: null exactly when no claim has that name; an exception exactly when the name is repeated; otherwise the value of a claim with that name |
| Jwt.LifetimeFailure | src/Pages/Tool.cshtml.cs:92-93 | the lifetime passes exactly when exp is present, nbf is not after exp, and now is within [nbf - skew, exp + skew] |
| Jwt.Validate | src/Pages/Tool.cshtml.cs:80-103 | validation succeeds exactly when the signature verifies, the lifetime passes, a non-blank token audience is valid, and the issuer is non-blank and equal to the valid issuer |
| Launch.OnPost | src/Pages/Tool.cshtml.cs:19-106 | 400 exactly for an empty token or one `CanReadToken` rejects; an unhandled exception exactly for a JWT-shaped token that does not decode, or a decoded one with a repeated nonce claim; the tool page exactly when the token is accepted (single non-empty nonce, signature, lifetime, display URL as audience, its own issuer); 401 in every other case |
| Launch.LaunchGateOrder | src/Pages/Tool.cshtml.cs:25-49 | the early gates in order: empty and not JWT-shaped give 400, undecodable throws; a missing or empty nonce gives 401; a token without iss gets 401 (500 with a repeated nonce) and never the tool page |
| Launch.AnyIssuerAccepted | src/Pages/Tool.cshtml.cs:42-98 | an accepted token stays accepted with any other non-blank issuer, because no registration is consulted |
| Launch.NonceValueIgnored | src/Pages/Tool.cshtml.cs:46-49 | an accepted token stays accepted with any other non-empty nonce, because the value is never checked against the state table |
| LaunchLegacy.Check | Pages/Tool.cshtml.cs:56-156 | an accepted token is the one read from the form field; every refusal after reading carries that token; the page throws exactly on an undecodable token or on a repeated nonce after a non-empty issuer |
| LaunchLegacy.OnPost | Pages/Tool.cshtml.cs:46-161 | whenever the page is shown, Error is unset exactly when LtiRequest is set, and then Token is the request's token; an empty field shows its error text and nothing else |
| LaunchLegacy.IssuerNotRecognizedUnreachable | Pages/Tool.cshtml.cs:79-92 | the second issuer test can never refuse, because it repeats the first |
| LaunchLegacy.LegacyRefusals | Pages/Tool.cshtml.cs:56-101 | each refusal before validation shows its own error text, with the token when one was read; a token without iss shows "Issuer is missing from id_token"; an undecodable token throws |
| LaunchLegacy.ValidationMessageShown | Pages/Tool.cshtml.cs:148-156 | a validation exception's message becomes the error and LtiRequest stays unset |
| LaunchLegacy.SnapshotsAgree | Pages/Tool.cshtml.cs:46-161 | the earlier page builds LtiRequest exactly when the later page shows the tool; the earlier page throws exactly when the later one does, except on a decoded token with an empty iss, which the earlier page refuses first |
| AccessToken.GetAccessToken | src/Utility/AccessTokenService.cs:25-77 | no platform gives "Cannot find platform registration."; a discovery error is returned verbatim; a document without a token endpoint throws, and so does a private key PemHelper cannot read; once an endpoint is configured or discovered, a request is built exactly when the key reads, and it goes to that endpoint with iss = sub = client id, aud = endpoint, iat = now, nbf 5 s before, exp 5 min after, the fresh jti, the platform's private key and the given scope |
| AccessToken.DiscoveryOnlyWhenMissing | src/Utility/AccessTokenService.cs:34-52 | with a configured token URL, the result does not depend on discovery |
| AccessToken.NoPlatformNoDiscovery | src/Utility/AccessTokenService.cs:27-31 | with no platform for the issuer, the result is the error whatever discovery or the key would give |
| AccessToken.DiscoveryErrorBeforeKey | src/Utility/AccessTokenService.cs:36-64 | a discovery error is returned before the private key is read, so it does not depend on the key |
| TokenRequest.Fields | src/Utility/TokenClientExtensions.cs:29-39 | grant_type is client_credentials, client_assertion_type is the JWT-bearer URN, and client_assertion is the JWT; scope is present exactly when non-empty and then equals it; no other field |
| TokenRequest.FieldsNamesDistinct | src/Utility/TokenClientExtensions.cs:29-39 | no field name repeats, so the dictionary never throws; three fields, or four with a scope |
| LineItems.RequestedScopeSplits | src/Pages/Components/LineItems/LineItemsViewComponent.cs:51-55 | the requested scope splits at spaces into exactly the three scope URIs |
| LineItems.ResultsUrl | src/Pages/Components/LineItems/LineItemsViewComponent.cs:142 | the results URL starts with the line item id and ends with "/results", and is exactly 7 characters longer when the id already ends in '/' and 8 otherwise, so it is the id with one trailing slash followed by "results" |
| LineItems.ResultsUrlIgnoresTrailingSlash | src/Pages/Components/LineItems/LineItemsViewComponent.cs:142 | an id with or without its trailing slash gives the same results URL |
| LineItems.MemberLeTotalPreorder | src/Pages/Components/LineItems/LineItemsViewComponent.cs:118 | family name then given name is a total preorder, so the ordering is well defined |
| LineItems.AddMembers | src/Pages/Components/LineItems/LineItemsViewComponent.cs:118-124 | the dictionary keeps unique keys, keeps its old entries, and adds the first member seen for each new user id |
| LineItems.MemberMap | src/Pages/Components/LineItems/LineItemsViewComponent.cs:116-124 | one entry per user id among the members; its value is the "Family, Given" of a member that sorts first among those with that id |
| LineItems.FetchResults | src/Pages/Components/LineItems/LineItemsViewComponent.cs:134-159 | completes exactly when every results GET succeeds, filling every item; otherwise stops at the first failure with its status, items before it filled and the rest untouched; headers and line items never change |
| LineItems.Run | src/Pages/Components/LineItems/LineItemsViewComponent.cs:31-162 | a missing id_token gives its status; a crash happens exactly on an unreadable token, or a null token response when AGS is present; no AGS claim gives its status and nothing else; a failed line-items GET shows its reason phrase; after a successful GET, a failed membership GET shows its status with the headed line items and no members, and otherwise the members are the member map, the items those the results loop built and the status the one it stopped with |
| LineItems.InvokeAsWritten | src/Pages/Components/LineItems/LineItemsViewComponent.cs:92-96 | the view renders without a model exactly when the line-items GET throws after every earlier gate passed |
| LineItems.Invoke | src/Pages/Components/LineItems/LineItemsViewComponent.cs:31-162 | every rendered view has a model; it differs from the code as written only when the line-items GET throws, and then shows that message |
| LineItems.CompleteRun | src/Pages/Components/LineItems/LineItemsViewComponent.cs:31-162 | when every call succeeds, the model has no status, every line item with its results, and the member map |
| LineItems.TokenErrorStopsEarly | src/Pages/Components/LineItems/LineItemsViewComponent.cs:57-62 | a token error other than "Created" is the status, and no GET is consulted |
| LineItems.CreatedIsTolerated | src/Pages/Components/LineItems/LineItemsViewComponent.cs:57-58 | a token error of exactly "Created" behaves as no error |
| LineItems.MissingNrpsIsCaught | src/Pages/Components/LineItems/LineItemsViewComponent.cs:99-131 | without a membership claim, the null dereference is caught: the page shows an empty member list and the null-reference message |
| LineItems.LineItemsFailureLosesStatus | src/Pages/Components/LineItems/LineItemsViewComponent.cs:92-96 | a concrete launch whose line-items GET throws renders no model as written, while the corrected component shows the message |
| Jwks.OnGet | src/Controllers/JwksController.cs:29-49 | a key set exactly when every client's public key parses; then one key per client, in order, each as KeyFor states |
| Jwks.NoClientsNoKeys | src/Controllers/JwksController.cs:31-48 | no clients give an empty key set |
| Jwks.OnGetAppend | src/Controllers/JwksController.cs:33-47 | adding a client appends its key to the set |
| Jwks.KidsAreKeyIds | src/Controllers/JwksController.cs:42 | every client's key id is among the published kids |
| Discovery.OnGet | src/Controllers/OpenIdConfigController.cs:20-28 | the issuer is the absolute URI of scheme://host; jwks_uri extends the issuer and ends with "/oauth2/jwks" |
| Discovery.JwksUriUnderIssuer | src/Controllers/OpenIdConfigController.cs:22-27 | jwks_uri is the issuer with a trailing slash, then the JWKS path |
| Discovery.SameOriginSameDocument | src/Controllers/OpenIdConfigController.cs:22-27 | the same scheme and host give the same document |
| Catalog.GeneratedTitlesDistinct | src/Pages/Catalog.cshtml.cs:106 | generated titles are pairwise distinct |
| Catalog.OnGet | src/Pages/Catalog.cshtml.cs:41-59 | an empty token sets only the error; an unreadable one throws; otherwise the token, request and ten activities are shown |
| Catalog.Selected | src/Pages/Catalog.cshtml.cs:77-88 | an activity is kept exactly when it is in the catalog and selected |
| Catalog.SelectedAppend | src/Pages/Catalog.cshtml.cs:77-88 | filtering a concatenation filters each part |
| Catalog.ContentItems | src/Pages/Catalog.cshtml.cs:76-90 | one link item per selected activity, in order, with its title, description and the tool URL |
| Catalog.OnPostAssignActivities | src/Pages/Catalog.cshtml.cs:65-95 | a redirect exactly when the token reads, the settings and activities are present and the return URL is non-empty; the response echoes data and deployment id and holds the selected items |
| Catalog.NothingSelectedNoItems | src/Pages/Catalog.cshtml.cs:77-90 | posting the generated catalog unchanged links nothing |
| Catalog.NoneSelected | src/Pages/Catalog.cshtml.cs:77-88 | a catalog with nothing selected yields no content items |
| Catalog.RedirectIgnoresSelection | src/Pages/Catalog.cshtml.cs:94 | the redirect target does not depend on what is selected |
| Registry.FreshId | src/Pages/Clients/Create.cshtml.cs:39-40 | a new row's key is positive and greater than every existing key |
| Registry.Gate | src/Pages/Platforms/Edit.cshtml.cs:33-50 | 404 for no id, no row, or another owner's row; an exception for a missing user; otherwise the owned row |
| Registry.DeletePost | src/Pages/Platforms/Delete.cshtml.cs:45-60 | no id is 404; otherwise the row with that key is removed, whoever owns it, and nothing else changes |
| Registry.DeleteAbsentIsNoOp | src/Pages/Platforms/Delete.cshtml.cs:52-57 | deleting a missing key changes nothing; deleting twice is deleting once |
| Registry.ListOwned | src/Pages/Clients/Index.cshtml.cs:24-30 | exactly the user's rows: as many as the user owns, each owned, every owned one listed |
| Platforms.Fill | src/Pages/Platforms/Edit.cshtml.cs:71-72 | the form's fields are written onto the row, keeping its key and owner |
| Platforms.FillFormOf | src/Pages/Platforms/Edit.cshtml.cs:52-72 | writing back a stored platform's own form changes nothing |
| Platforms.SummaryOfSaved | src/Pages/Platforms/Index.cshtml.cs:30-38 | a platform saved from a form is listed with the form's name, issuer, client id and endpoints and the row's own id |
| Platforms.Discovered | src/Pages/Platforms/Create.cshtml.cs:44 | discovery changes only the three endpoint URLs |
| Platforms.CreatePost | src/Pages/Platforms/Create.cshtml.cs:31-54 | a taken issuer shows the error; an invalid form shows the page; otherwise a new row under a fresh key holding the discovered form, owned by the signed-in user (or by nobody when there is none), and no other row changes |
| Platforms.CreateKeepsIssuersUnique | src/Pages/Platforms/Create.cshtml.cs:33-53 | registration preserves unique issuers |
| Platforms.EditGet | src/Pages/Platforms/Edit.cshtml.cs:33-55 | 404 exactly for a missing id, an unknown id or another user's platform; an exception exactly when no user is signed in, or when the owner's stored private key cannot be turned into a public key; otherwise the form with the derived public key |
| Platforms.EditStoresPosted | src/Pages/Platforms/Edit.cshtml.cs:57-74 | a valid edit saves exactly when the row exists and a public key was posted or can be derived, and otherwise throws and leaves the table alone; the saved row holds the posted name, issuer, client id, key id, private key and secret, the discovered endpoints, and the posted public key, or the one derived from the private key when none was posted |
| Platforms.EditPost | src/Pages/Platforms/Edit.cshtml.cs:57-91 | an invalid form shows the page; a key with no row, or a missing public key that cannot be derived, throws; otherwise only that row changes, it keeps its owner, and it holds the edited form; there is no owner check |
| Platforms.EditCanDuplicateIssuer | src/Pages/Platforms/Edit.cshtml.cs:57-91 | an edit can give one platform another's issuer, so unlike registration, editing does not keep issuers unique |
| Platforms.DetailsGet | src/Pages/Platforms/Details.cshtml.cs:27-59 | 404 exactly for a missing id, an unknown id or another user's platform; an exception exactly when no user is signed in; otherwise the signed-in owner sees the platform's summary and the tool's issuer |
| Platforms.DeleteGet | src/Pages/Platforms/Delete.cshtml.cs:21-43 | the page shows exactly a platform of the signed-in user; everything else is 404 |
| Platforms.DeletePlatform | src/Pages/Platforms/Delete.cshtml.cs:45-60 | no id is 404; otherwise the row is removed without an owner check |
| Platforms.NameLeTotalPreorder | src/Pages/Platforms/Index.cshtml.cs:29 | ordering by name is a total preorder |
| Platforms.IndexGet | src/Pages/Platforms/Index.cshtml.cs:24-40 | a missing user throws; otherwise exactly the user's platforms, as summaries, sorted by name |
| Platforms.IndexListing | src/Pages/Platforms/Index.cshtml.cs:27-39 | the sorted summaries list each owned platform and nothing else |
| Platforms.ListedIsOwned | src/Pages/Platforms/Index.cshtml.cs:27-29 | sorting the user's platforms lists only platforms the user owns |
| Platforms.OwnedIsListed | src/Pages/Platforms/Index.cshtml.cs:27-29 | sorting the user's platforms drops none of them |
| Clients.RecordOf | src/Pages/Clients/Edit.cshtml.cs:65-74 | the saved record has the form's fields and the poster as owner |
| Clients.RecordOfFormOf | src/Pages/Clients/Edit.cshtml.cs:44-74 | a stored client is rebuilt exactly from its form and owner |
| Clients.CreatePost | src/Pages/Clients/Create.cshtml.cs:28-43 | an invalid form shows the page; a missing user throws; otherwise the client is added under a fresh key with the user as owner, and nothing else changes |
| Clients.CreatedClientIsOwned | src/Pages/Clients/Create.cshtml.cs:35-40 | the poster's clients grow by exactly the new key |
| Clients.EditGet | src/Pages/Clients/Edit.cshtml.cs:25-55 | 404 for no id, no row, or another owner's row; an exception for a missing user; otherwise the owned client's form |
| Clients.EditPost | src/Pages/Clients/Edit.cshtml.cs:57-93 | an invalid form shows the page; a missing user throws; a key with no row is 404; otherwise the row becomes the form's record, owned by the poster |
| Clients.EditPostTakesOver | src/Pages/Clients/Edit.cshtml.cs:64-76 | posting another user's key makes the poster its owner |
| Clients.DeleteGet | src/Pages/Clients/Delete.cshtml.cs:24-40 | the page shows exactly a client of the signed-in user; no id or another owner's client is 404; a missing user throws |
| Clients.DeleteClient | src/Pages/Clients/Delete.cshtml.cs:42-58 | no id is 404; otherwise the row is removed without an owner check |
| Clients.IndexGet | src/Pages/Clients/Index.cshtml.cs:24-30 | a missing user throws; otherwise exactly the user's clients |
| Clients.HomeIndex | src/Pages/Index.cshtml.cs:25-46 | the list is set exactly for a signed-in, known user, with one entry per client they own |
| Clients.HomeShowsOnlyOwned | src/Pages/Index.cshtml.cs:32-43 | each of the entries on the home page, as many as the user owns, is the form of a client the user owns |
| Clients.HomeShowsAllOwned | src/Pages/Index.cshtml.cs:32-43 | every client the user owns appears on the home page |
| Clients.HomeMatchesClientList | src/Pages/Index.cshtml.cs:32-43 | the home page is the Clients list, field by field |
| ClientKeys.ReloadShowsSaved | src/Areas/Identity/Pages/Account/Manage/Client.cshtml.cs:22-50 | loading the page after a save shows the client as stored, which is the posted client with both keys normalised |
| ClientKeys.SavedKey | src/Areas/Identity/Pages/Account/Manage/Client.cshtml.cs:41-46 | a blank key is saved as null; a present key is normalised, never grows, and is unchanged when it holds no blank line |
| ClientKeys.Normalized | src/Areas/Identity/Pages/Account/Manage/Client.cshtml.cs:41-46 | only the two keys change |
| ClientKeys.OnPost | src/Areas/Identity/Pages/Account/Manage/Client.cshtml.cs:34-51 | an invalid form shows the page; a missing client or row throws; otherwise exactly that row becomes the normalised client |
| ClientKeys.CleanKeysSavedAsPosted | src/Areas/Identity/Pages/Account/Manage/Client.cshtml.cs:41-49 | keys without blank lines are saved exactly as posted |
| ClientKeys.BlankKeyCleared | src/Areas/Identity/Pages/Account/Manage/Client.cshtml.cs:41-43 | a blank private key is cleared to null |
| Text.Replace | src/Areas/Identity/Pages/Account/Manage/Client.cshtml.cs:42 | `String.Replace` with a shorter replacement never lengthens the string, and shortens it exactly when the pattern occurs |
| Text.ReplaceAbsent | src/Areas/Identity/Pages/Account/Manage/Client.cshtml.cs:42 | `String.Replace` leaves a string without the pattern unchanged |
| Text.NormalizePem | src/Areas/Identity/Pages/Account/Manage/Client.cshtml.cs:42 | the result is never longer, keeps its length exactly when there is no "\r\n\r\n", and is then unchanged |
| Text.NormalizePemNotIdempotent | src/Areas/Identity/Pages/Account/Manage/Client.cshtml.cs:42 | three line breaks in a row become two, which still form a blank line: one pass does not remove every blank line |
| Text.NormalizePemScan | src/Areas/Identity/Pages/Account/Manage/Client.cshtml.cs:42 | the character-by-character scan computes the same normalisation |
| Text.NatToStringInjective | src/Pages/Catalog.cshtml.cs:106 | distinct numbers print as distinct decimal strings |
| Text.ParseNatToString | src/Pages/Catalog.cshtml.cs:106 | reading the decimal digits of a number gives the number back |
| Text.SplitJoin | src/Pages/Components/LineItems/LineItemsViewComponent.cs:52-55 | splitting a join at its separator gives the parts back when none contains it |
| Sorting.SortBy | src/Pages/Components/LineItems/LineItemsViewComponent.cs:118 | the result is a permutation of the input, sorted by the given order |
| Common.EnsureTrailingSlash | src/Controllers/OpenIdConfigController.cs:26 | the input is kept as a prefix; the result ends in '/', adds at most one character, and is the input itself when that already ends in '/' |
| Common.EnsureTrailingSlashIdempotent | src/Controllers/OpenIdConfigController.cs:26 | applying it twice is applying it once |

## Left out

- The cryptography and parsers are parameters: JWT reading, RS256 signing and verification, PEM parsing (the access-token service's `keyReads` says only whether a key parses), `RsaHelper` (the Platforms edit pages' `derive` gives a public key or fails), base64url, `Uri` parsing and `AbsoluteUri`. The embedded public key of the launch pages is not modelled.
- Network calls are parameters and are never performed: the HTTP GETs of the line-items component, OpenID Connect discovery, and the token request the access-token service sends. Headers, bearer tokens and media types are not modelled.
- Jwt.LifetimeFailure: times are whole seconds. `DateTime.UtcNow` has sub-second precision, so in the source a token can expire during the second the model still accepts it: the expiry boundary moves by up to one second.
- Clock and randomness are parameters: `DateTime.UtcNow` becomes `now`, and `CryptoRandom.CreateUniqueId` and the `jti` nonce are given values.
- Logging and `Debug.WriteLine` are not modelled.
- Launch.OnPost: `read` gives a decoded token whose `iss` is absent as `issuer = None`. The page itself only sees `JwtSecurityToken.Issuer`, modelled by `Jwt.IssuerOf`, which turns that into the empty string.
- AccessToken.GetAccessToken: a null private key cannot occur in the model, because `Platform.privateKey` is a string. The case where `keyReads` is false covers the exception PemHelper would throw for it.
- AccessToken.GetAccessToken: one `now` serves iat, nbf and exp. The source reads the clock three times, so its values may differ by the time between the reads.
- StateStore.AddState: it requires a fresh id. A duplicate key fails inside Entity Framework, which is not part of this model. Login passes it a fresh nonce.
- Records.FindByIssuer: `GetPlatformByIssuerAsync` is not part of this model. If two platforms share an issuer, the lowest key is taken. That can happen after an edit, which has no issuer check (`Platforms.EditCanDuplicateIssuer`).
- Platforms.EditGet: a null private key, as a registration with only a shared secret has, is not representable, because `Platform.privateKey` is a string. A `derive` that fails on the stored text covers the exception `RsaHelper` would throw for it. The same holds for Platforms.EditPost.
- Platforms pages: `PlatformModel.DiscoverEndpoints`, `UpdateEntity` and `FillEntity` are not part of this model. They are modelled as their names say: discovery replaces the three endpoint URLs, and the entity methods copy the form's fields onto the entity.
- Database order: the order in which the database returns rows is unspecified. Key order stands in for it in `Registry.ListOwned`. New keys are one past the largest key (`Registry.FreshId`), whereas an identity column may skip values.
- String comparison in queries: `IssuerTaken`, `FindByIssuer` and the owner filters that run as queries (`Registry.ListOwned` for the two list pages, `Clients.DeleteGet`) compare strings exactly, by ordinal equality. In the source these comparisons run in SQL Server under the column collation, which the code never sets. The default collation ignores case and trailing spaces, so the model refuses fewer registrations than the source: there `HTTPS://P` counts as already registered when `https://p` is, while the model accepts it.
- String order: the Platforms list is ordered by name in the database, under the column collation. The model orders it ordinally (`Ordering.LexLe`). The members list of the line-items component is sorted in memory with .NET's default, culture-sensitive string comparer, and the model orders it ordinally. The owner checks of the edit and details pages also run in memory, where `!=` on strings is ordinal as modelled.
- Concurrency: `DbUpdateConcurrencyException` races between two writers are not modelled. In the model a missing row is the only cause of that exception.
- Clients.CreatePost: a posted client id is ignored and the row gets a fresh key. In the source the bound `Client.Id` reaches the insert: a zero id leaves the key to the identity column, and a posted non-zero id is inserted explicitly into that identity column, which the database refuses, so the POST throws where the model redirects.
- LineItems.Run: failures of JSON deserialisation are not modelled, so a body of `null` is never returned. Neither are a null member list, a null user id, a null line-item id, or a non-null token response whose access token is missing. Each GET is a function of its URL alone.
- TokenRequest.Fields: the merge with `extra` and the request itself are not modelled. The access-token service sends its request through the IdentityModel client and does not call this extension.
- Catalog.OnPostAssignActivities: `Url.Page("./Tool", …)` is the `toolUrl` parameter. The response is written to debug output, and its JSON form is not modelled.
- The earlier snapshot's `Pages/Tool.cshtml.cs` is modelled only in its `OnPost`. The `LtiResourceLinkRequest` is represented by the accepted token.
- `ModelState.IsValid` is a boolean parameter. Validation attributes are not modelled.

## Findings

| source | as written | input that shows it | evidently intended | confidence | as-written member | corrected member |
|---|---|---|---|---|---|---|
| src/Pages/Components/LineItems/LineItemsViewComponent.cs:92-96 | the catch around the line-items GET sets the status on the model, then renders `View()` without the model | a readable launch with an AGS claim and a successful token, whose line-items GET throws "No such host is known." | render `View(model)` as every other exit does, so that the status is shown | not executed | LineItems.LineItemsFailureLosesStatus | LineItems.Invoke |

=== FILE: access_token.dfy ===
/** `AccessTokenService.GetAccessTokenAsync`: find the platform that issued
    the launch token, choose its token endpoint (configured, or found by
    discovery), and build the client-credentials request whose client
    assertion is a JWT with the claims of section 4.1 of RFC 7519. Sending
    the request and signing the assertion are outside the model. */
module AccessToken {
  import opened Common
  import opened Records

  /** The message of the exception returned when no platform matches. */
  const NoPlatformError := "Cannot find platform registration."

  /** Seconds subtracted from `now` for `nbf`. */
  const NotBeforeLeeway := 5
  /** `AddMinutes(5)`, in seconds, for `exp`. */
  const Lifetime := 300

  /** What `GetDiscoveryDocumentAsync` returns: an error text, or a document
      whose `token_endpoint` may be absent. */
  datatype Discovery = DiscoveryError(error: string) | DiscoveryDocument(tokenEndpoint: Option<string>)

  /** The client assertion's claims, times in seconds since the epoch. */
  datatype Assertion = Assertion(iss: string, sub: string, aud: string, iat: int, nbf: int, exp: int, jti: string)

  /** The `JwtClientCredentialsTokenRequest`: the endpoint, the assertion
      with the PEM key it is signed with, and the requested scope. */
  datatype Request = Request(address: string, assertion: Assertion, signingKey: string, scope: Option<string>)

  /** An error `TokenResponse`, the request to send, or an exception the
      service does not catch. */
  datatype Outcome = ErrorResponse(error: string) | Send(request: Request) | Crash

  /** The endpoint the service uses for `platform`, or the discovery error. */
  function TokenEndpoint(platform: Platform, discover: string -> Discovery): (r: Discovery)
    ensures IsPresent(platform.accessTokenUrl) ==> r == DiscoveryDocument(platform.accessTokenUrl)
    ensures IsMissing(platform.accessTokenUrl) ==> r == discover(platform.issuer)
  {
    if IsMissing(platform.accessTokenUrl) then discover(platform.issuer)
    else DiscoveryDocument(platform.accessTokenUrl)
  }

  /** `GetAccessTokenAsync(securityToken, scope)`. `issuer` is the launch
      token's `iss`; `discover` fetches the discovery document of an issuer;
      `keyReads` says whether `PemHelper.SigningCredentialsFromPemString`
      turns a stored private key into signing credentials (it throws on an
      empty or non-PEM text and on a PEM that is not an RSA key pair); `now`
      is the clock in seconds and `jti` a fresh random value. */
  function GetAccessToken(issuer: Option<string>, scope: Option<string>, platforms: Table<Platform>,
                          discover: string -> Discovery, keyReads: string -> bool,
                          now: int, jti: string): (r: Outcome)
    ensures (issuer.None? || FindByIssuer(platforms, issuer.value).None?) ==> r == ErrorResponse(NoPlatformError)
    ensures issuer.Some? && FindByIssuer(platforms, issuer.value).Some? ==>
      var platform := FindByIssuer(platforms, issuer.value).value;
      && (IsPresent(platform.accessTokenUrl) ==> (r.Send? <==> keyReads(platform.privateKey)))
      && (IsMissing(platform.accessTokenUrl) && discover(platform.issuer).DiscoveryDocument?
            && discover(platform.issuer).tokenEndpoint.Some? ==>
            (r.Send? <==> keyReads(platform.privateKey)))
      && (IsMissing(platform.accessTokenUrl) && discover(platform.issuer).DiscoveryError? ==>
            r == ErrorResponse(discover(platform.issuer).error))
      && (r == Crash <==>
            || (IsMissing(platform.accessTokenUrl) && discover(platform.issuer) == DiscoveryDocument(None))
            || (&& !keyReads(platform.privateKey)
                && (IsPresent(platform.accessTokenUrl) || discover(platform.issuer).DiscoveryDocument?)))
    ensures r.Send? ==>
      && issuer.Some?
      && var platform := FindByIssuer(platforms, issuer.value).value;
      && keyReads(platform.privateKey)
      && r.request.assertion.iss == platform.clientId
      && r.request.assertion.sub == platform.clientId
      && r.request.assertion.aud == r.request.address
      && r.request.signingKey == platform.privateKey
      && (IsPresent(platform.accessTokenUrl) ==> Some(r.request.address) == platform.accessTokenUrl)
      && (IsMissing(platform.accessTokenUrl) ==> discover(platform.issuer) == DiscoveryDocument(Some(r.request.address)))
    ensures r.Send? ==>
      && r.request.assertion.iat == now
      && r.request.assertion.nbf < r.request.assertion.iat < r.request.assertion.exp
      && r.request.assertion.iat - r.request.assertion.nbf == NotBeforeLeeway
      && r.request.assertion.exp - r.request.assertion.iat == Lifetime
      && r.request.assertion.jti == jti
      && r.request.scope == scope
  {
    if issuer.None? then ErrorResponse(NoPlatformError)
    else match FindByIssuer(platforms, issuer.value)
      case None => ErrorResponse(NoPlatformError)
      case Some(platform) =>
        match TokenEndpoint(platform, discover)
        case DiscoveryError(error) => ErrorResponse(error)
        case DiscoveryDocument(None) => Crash
        case DiscoveryDocument(Some(endpoint)) =>
          if !keyReads(platform.privateKey) then Crash
          else
            var assertion := Assertion(
              iss := platform.clientId,
              sub := platform.clientId,
              aud := endpoint,
              iat := now,
              nbf := now - NotBeforeLeeway,
              exp := now + Lifetime,
              jti := jti);
            Send(Request(endpoint, assertion, platform.privateKey, scope))
  }

  /** Discovery runs only for a platform without a configured endpoint: with
      one configured, any discovery service gives the same result. */
  lemma DiscoveryOnlyWhenMissing(issuer: Option<string>, scope: Option<string>, platforms: Table<Platform>,
                                 d1: string -> Discovery, d2: string -> Discovery, keyReads: string -> bool,
                                 now: int, jti: string)
    requires issuer.Some? && FindByIssuer(platforms, issuer.value).Some?
    requires IsPresent(FindByIssuer(platforms, issuer.value).value.accessTokenUrl)
    ensures GetAccessToken(issuer, scope, platforms, d1, keyReads, now, jti)
         == GetAccessToken(issuer, scope, platforms, d2, keyReads, now, jti)
  {
  }

  /** With no platform for the issuer, the service answers before it
      resolves any endpoint: the discovery service is never consulted. */
  lemma NoPlatformNoDiscovery(issuer: Option<string>, scope: Option<string>, platforms: Table<Platform>,
                              d1: string -> Discovery, d2: string -> Discovery,
                              k1: string -> bool, k2: string -> bool, now: int, jti: string)
    requires issuer.None? || FindByIssuer(platforms, issuer.value).None?
    ensures GetAccessToken(issuer, scope, platforms, d1, k1, now, jti)
         == GetAccessToken(issuer, scope, platforms, d2, k2, now, jti)
         == ErrorResponse(NoPlatformError)
  {
  }

  /** The key is read only once an endpoint is known: a discovery error is
      returned whatever the stored private key is. */
  lemma DiscoveryErrorBeforeKey(issuer: Option<string>, scope: Option<string>, platforms: Table<Platform>,
                                discover: string -> Discovery, k1: string -> bool, k2: string -> bool,
                                now: int, jti: string)
    requires issuer.Some? && FindByIssuer(platforms, issuer.value).Some?
    requires IsMissing(FindByIssuer(platforms, issuer.value).value.accessTokenUrl)
    requires discover(FindByIssuer(platforms, issuer.value).value.issuer).DiscoveryError?
    ensures GetAccessToken(issuer, scope, platforms, discover, k1, now, jti)
         == GetAccessToken(issuer, scope, platforms, discover, k2, now, jti)
         == ErrorResponse(discover(FindByIssuer(platforms, issuer.value).value.issuer).error)
  {
  }
}

=== FILE: catalog.dfy ===
/** The deep-linking catalog page (`CatalogModel`): the GET shows a fixed
    catalog of activities for a deep-linking request; the POST turns the
    activities the user selected into LTI link content items, builds the
    deep-linking response from them and redirects to the platform's return
    URL. The response is only written to debug output: it is neither signed
    nor sent. */
module Catalog {
  import opened Common
  import Text

  /** The number of activities the GET offers. */
  const CatalogSize := 10

  /** The `Error` text of a GET without a token. */
  const MissingIdTokenError := "idToken is missing or empty"

  datatype Activity = Activity(id: int, title: string, description: string, selected: bool)

  /** The deep-linking settings claim of the request. */
  datatype DeepLinkingSettings = DeepLinkingSettings(data: Option<string>, deepLinkReturnUrl: Option<string>)

  /** The parts of `LtiDeepLinkingRequest` the page reads. */
  datatype DeepLinkingRequest = DeepLinkingRequest(deploymentId: Option<string>, settings: Option<DeepLinkingSettings>)

  /** An `LtiLinkItemType` content item. */
  datatype LinkItem = LinkItem(title: string, text: string, url: string)

  /** The `LtiDeepLinkingResponse` the POST assembles. */
  datatype DeepLinkingResponse = DeepLinkingResponse(data: Option<string>, deploymentId: Option<string>, contentItems: seq<LinkItem>)

  /** The page state after the GET. */
  datatype CatalogPage = CatalogPage(
    error: Option<string>, idToken: Option<string>, ltiRequest: Option<DeepLinkingRequest>, activities: Option<seq<Activity>>)

  datatype GetOutcome = Shown(page: CatalogPage) | GetCrash

  /** The POST's result: the redirect, with the response written to debug
      output, or an exception it does not catch. */
  datatype PostOutcome = Redirect(url: string, debugResponse: DeepLinkingResponse) | PostCrash

  /** `GenerateActivities(count)`: activities 0 .. count-1, none selected. */
  function GenerateActivities(count: nat): (r: seq<Activity>)
    ensures |r| == count
    ensures forall i :: 0 <= i < count ==>
      && r[i].id == i
      && r[i].title == "Activity " + Text.NatToString(i)
      && r[i].description == "This is the description for Activity " + Text.NatToString(i) + "."
      && !r[i].selected
  {
    seq(count, i requires 0 <= i < count =>
      Activity(i, "Activity " + Text.NatToString(i),
               "This is the description for Activity " + Text.NatToString(i) + ".", false))
  }

  /** The generated titles tell the activities apart. */
  lemma GeneratedTitlesDistinct(count: nat, i: int, j: int)
    requires 0 <= i < count && 0 <= j < count && i != j
    ensures GenerateActivities(count)[i].title != GenerateActivities(count)[j].title
  {
    var a := GenerateActivities(count);
    if a[i].title == a[j].title {
      assert a[i].title[9..] == Text.NatToString(i);
      assert a[j].title[9..] == Text.NatToString(j);
      Text.NatToStringInjective(i, j);
    }
  }

  /** `OnGet(idToken)`. `read` stands for `ReadJwtToken` followed by the
      `LtiDeepLinkingRequest` constructor (`None` when it throws). */
  function OnGet(idToken: Option<string>, read: string -> Option<DeepLinkingRequest>): (r: GetOutcome)
    ensures IsNullOrEmpty(idToken) ==> r == Shown(CatalogPage(Some(MissingIdTokenError), None, None, None))
    ensures r == GetCrash <==> !IsNullOrEmpty(idToken) && read(idToken.value).None?
    ensures r.Shown? && !IsNullOrEmpty(idToken) ==>
      && r.page.error.None?
      && r.page.idToken == idToken
      && r.page.ltiRequest == read(idToken.value)
      && r.page.activities == Some(GenerateActivities(CatalogSize))
  {
    if IsNullOrEmpty(idToken) then Shown(CatalogPage(Some(MissingIdTokenError), None, None, None))
    else match read(idToken.value)
      case None => GetCrash
      case Some(req) => Shown(CatalogPage(None, idToken, Some(req), Some(GenerateActivities(CatalogSize))))
  }

  /** The selected activities, in catalog order: the reference definition
      of the `foreach … if (activity.Selected)` filter. */
  function Selected(activities: seq<Activity>): (r: seq<Activity>)
    ensures forall a :: a in r <==> a in activities && a.selected
    ensures |r| <= |activities|
    decreases |activities|
  {
    if |activities| == 0 then []
    else
      var rest := Selected(activities[1..]);
      assert forall a :: a in activities <==> a == activities[0] || a in activities[1..];
      if activities[0].selected then [activities[0]] + rest else rest
  }

  /** Filtering a catalog split in two filters each part. */
  lemma {:induction false} SelectedAppend(xs: seq<Activity>, ys: seq<Activity>)
    ensures Selected(xs + ys) == Selected(xs) + Selected(ys)
    decreases |xs|
  {
    if |xs| == 0 {
      assert xs + ys == ys;
    } else {
      assert (xs + ys)[0] == xs[0];
      assert (xs + ys)[1..] == xs[1..] + ys;
      SelectedAppend(xs[1..], ys);
    }
  }

  /** The content item for one activity; `toolUrl` is
      `Url.Page("./Tool", …, Request.Scheme)`. */
  function ItemFor(a: Activity, toolUrl: string): LinkItem {
    LinkItem(a.title, a.description, toolUrl)
  }

  /** The `foreach` that collects a content item per selected activity. */
  function ContentItems(activities: seq<Activity>, toolUrl: string): (r: seq<LinkItem>)
    ensures |r| == |Selected(activities)|
    ensures forall i :: 0 <= i < |r| ==> r[i] == ItemFor(Selected(activities)[i], toolUrl)
    decreases |activities|
  {
    if |activities| == 0 then []
    else
      var rest := ContentItems(activities[1..], toolUrl);
      if activities[0].selected then [ItemFor(activities[0], toolUrl)] + rest else rest
  }

  /** `OnPostAssignActivities`. `idToken` and `activities` are the bound
      form values (`None` when not posted); `read` is as for the GET. */
  function OnPostAssignActivities(idToken: Option<string>, activities: Option<seq<Activity>>,
                                  read: string -> Option<DeepLinkingRequest>, toolUrl: string): (r: PostOutcome)
    ensures r.Redirect? <==>
      && idToken.Some? && read(idToken.value).Some?
      && read(idToken.value).value.settings.Some?
      && activities.Some?
      && !IsNullOrEmpty(read(idToken.value).value.settings.value.deepLinkReturnUrl)
    ensures r.Redirect? ==>
      && var req := read(idToken.value).value;
      && r.url == req.settings.value.deepLinkReturnUrl.value
      && r.debugResponse.data == req.settings.value.data
      && r.debugResponse.deploymentId == req.deploymentId
      && |r.debugResponse.contentItems| == |Selected(activities.value)|
      && forall i :: 0 <= i < |r.debugResponse.contentItems| ==>
           r.debugResponse.contentItems[i] == ItemFor(Selected(activities.value)[i], toolUrl)
  {
    if idToken.None? then PostCrash
    else match read(idToken.value)
      case None => PostCrash
      case Some(req) =>
        if req.settings.None? || activities.None? then PostCrash
        else
          var response := DeepLinkingResponse(req.settings.value.data, req.deploymentId,
                                              ContentItems(activities.value, toolUrl));
          if IsNullOrEmpty(req.settings.value.deepLinkReturnUrl) then PostCrash
          else Redirect(req.settings.value.deepLinkReturnUrl.value, response)
  }

  /** Posting the catalog as generated, with nothing selected, links
      nothing. */
  lemma NothingSelectedNoItems(n: nat)
    ensures Selected(GenerateActivities(n)) == []
  {
    NoneSelected(GenerateActivities(n));
  }

  lemma {:induction false} NoneSelected(activities: seq<Activity>)
    requires forall i :: 0 <= i < |activities| ==> !activities[i].selected
    ensures Selected(activities) == []
    decreases |activities|
  {
    if |activities| > 0 {
      NoneSelected(activities[1..]);
    }
  }

  /** The redirect never depends on the selection: whatever is ticked, the
      browser goes to the same return URL. */
  lemma RedirectIgnoresSelection(idToken: Option<string>, a1: seq<Activity>, a2: seq<Activity>,
                                 read: string -> Option<DeepLinkingRequest>, toolUrl: string)
    requires OnPostAssignActivities(idToken, Some(a1), read, toolUrl).Redirect?
    ensures OnPostAssignActivities(idToken, Some(a2), read, toolUrl).Redirect?
    ensures OnPostAssignActivities(idToken, Some(a1), read, toolUrl).url
         == OnPostAssignActivities(idToken, Some(a2), read, toolUrl).url
  {
  }
}

=== FILE: client_keys.dfy ===
/** The key-management page of the signed-in user's own client
    (`Areas/Identity/Pages/Account/Manage/Client.cshtml.cs`): the GET shows
    the client, the POST saves it with both PEM keys normalised. */
module ClientKeys {
  import opened Common
  import opened Records
  import Text

  /** A signed-in user and the client the account holds, if any. */
  datatype Account = Account(id: string, client: Option<KeyedClient>)

  /** The page's result: 404 with its text, the page with the bound client,
      or an exception the page does not catch. */
  datatype Outcome = NotFound(message: string) | Page(client: Option<KeyedClient>) | Crash

  datatype Handled = Handled(outcome: Outcome, clients: Table<KeyedClient>)

  /** The 404 text; `principalId` is `GetUserId(User)`, empty when null. */
  function UnableToLoad(principalId: Option<string>): string {
    "Unable to load user with ID '" + principalId.GetOr("") + "'."
  }

  /** `OnGetAsync`. */
  function OnGet(account: Option<Account>, principalId: Option<string>): (r: Outcome)
    ensures account.None? ==> r == NotFound(UnableToLoad(principalId))
    ensures account.Some? ==> r == Page(account.value.client)
  {
    if account.None? then NotFound(UnableToLoad(principalId)) else Page(account.value.client)
  }

  /** What the POST stores for one key: the normalised PEM when the key is
      present, null when it is blank. */
  function SavedKey(key: Option<string>): (r: Option<string>)
    ensures IsMissing(key) <==> r.None?
    ensures r.Some? ==> r.value == Text.NormalizePem(key.value)
    ensures r.Some? ==> |r.value| <= |key.value|
    ensures r.Some? && !Text.Occurs(key.value, Text.BlankLine) ==> r == key
  {
    if IsPresent(key) then Some(Text.NormalizePem(key.value)) else None
  }

  /** The bound client with both keys as saved. */
  function Normalized(c: KeyedClient): (r: KeyedClient)
    ensures r.(privateKey := c.privateKey, publicKey := c.publicKey) == c
    ensures r.privateKey == SavedKey(c.privateKey) && r.publicKey == SavedKey(c.publicKey)
  {
    c.(privateKey := SavedKey(c.privateKey), publicKey := SavedKey(c.publicKey))
  }

  /** `OnPostAsync`: an invalid form shows the page again; otherwise the
      bound client, keys normalised, overwrites the row with its key. A
      client that was not posted is dereferenced and throws; a key with no
      row fails the save. */
  function OnPost(client: Option<KeyedClient>, valid: bool, clients: Table<KeyedClient>): (h: Handled)
    ensures !valid ==> h == Handled(Page(client), clients)
    ensures valid && (client.None? || client.value.id !in clients) ==> h == Handled(Crash, clients)
    ensures valid && client.Some? && client.value.id in clients ==>
      && h.outcome == Page(Some(Normalized(client.value)))
      && h.clients == clients[client.value.id := Normalized(client.value)]
  {
    if !valid then Handled(Page(client), clients)
    else if client.None? || client.value.id !in clients then Handled(Crash, clients)
    else
      var saved := Normalized(client.value);
      Handled(Page(Some(saved)), clients[saved.id := saved])
  }

  /** Loading the page again after a save shows the account's stored
      client, which is the client the POST showed, keys normalised. */
  lemma ReloadShowsSaved(c: KeyedClient, clients: Table<KeyedClient>, userId: string, principalId: Option<string>)
    requires c.id in clients
    ensures var h := OnPost(Some(c), true, clients);
      && OnGet(Some(Account(userId, Some(h.clients[c.id]))), principalId) == h.outcome
      && h.outcome == Page(Some(Normalized(c)))
  {
  }

  /** Keys without blank lines are saved exactly as posted, and so is the
      rest of the client. */
  lemma CleanKeysSavedAsPosted(c: KeyedClient, clients: Table<KeyedClient>)
    requires c.id in clients
    requires IsPresent(c.privateKey) && !Text.Occurs(c.privateKey.value, Text.BlankLine)
    requires IsPresent(c.publicKey) && !Text.Occurs(c.publicKey.value, Text.BlankLine)
    ensures OnPost(Some(c), true, clients).clients == clients[c.id := c]
  {
  }

  /** A blank key is cleared to null, whatever whitespace it held. */
  lemma BlankKeyCleared(c: KeyedClient, clients: Table<KeyedClient>)
    requires c.id in clients && IsMissing(c.privateKey)
    ensures OnPost(Some(c), true, clients).clients[c.id].privateKey.None?
  {
  }
}

=== FILE: clients.dfy ===
/** The Clients pages of the split-record design, and the home page that
    lists the signed-in user's clients. Each handler is a function from the
    request and the `Clients` table to an outcome and the new table. */
module Clients {
  import opened Common
  import opened Records
  import opened Registry

  /** `ClientModel`, the form and list item: a client's six shown fields. */
  datatype ClientForm = ClientForm(
    accessTokenUrl: string, clientId: string, name: string, id: int, issuer: string, jsonWebKeysUrl: string)

  function OwnerOf(c: Client): Option<string> {
    c.userId
  }

  /** The six fields copied into the form. */
  function FormOf(c: Client): (f: ClientForm)
    ensures f.id == c.id && f.name == c.name && f.clientId == c.clientId && f.issuer == c.issuer
    ensures f.accessTokenUrl == c.accessTokenUrl && f.jsonWebKeysUrl == c.jsonWebKeysUrl
  {
    ClientForm(c.accessTokenUrl, c.clientId, c.name, c.id, c.issuer, c.jsonWebKeysUrl)
  }

  /** The record the Edit POST attaches: the form's fields and the owner. */
  function RecordOf(f: ClientForm, userId: string): (c: Client)
    ensures FormOf(c) == f && c.userId == Some(userId)
  {
    Client(f.id, f.name, f.clientId, f.issuer, f.accessTokenUrl, f.jsonWebKeysUrl, Some(userId))
  }

  /** A stored client is its form plus its owner. */
  lemma RecordOfFormOf(c: Client)
    requires c.userId.Some?
    ensures RecordOf(FormOf(c), c.userId.value) == c
  {
  }

  /** `CreateModel.OnPostAsync`: the posted client, stamped with the
      signed-in user's id, is added under the next key. A missing user is
      dereferenced and throws. */
  function CreatePost(client: Client, valid: bool, clients: Table<Client>, user: Option<User>): (h: Handled<Client, ()>)
    ensures !valid ==> h == Handled(Page(()), clients)
    ensures valid && user.None? ==> h == Handled(Crash, clients)
    ensures valid && user.Some? ==>
      && var id := FreshId(clients);
      && h.outcome == RedirectToIndex
      && h.table.Keys == clients.Keys + {id}
      && (forall k :: k in clients ==> h.table[k] == clients[k])
      && h.table[id] == client.(id := id, userId := Some(user.value.id))
  {
    if !valid then Handled(Page(()), clients)
    else if user.None? then Handled(Crash, clients)
    else
      var id := FreshId(clients);
      var t := clients[id := client.(id := id, userId := Some(user.value.id))];
      assert t.Keys == clients.Keys + {id};
      Handled(RedirectToIndex, t)
  }

  /** Whoever posted the form owns the client it creates. */
  lemma CreatedClientIsOwned(client: Client, clients: Table<Client>, user: User)
    ensures var h := CreatePost(client, true, clients, Some(user));
      OwnedIds(h.table, OwnerOf, user.id) == OwnedIds(clients, OwnerOf, user.id) + {FreshId(clients)}
  {
    var h := CreatePost(client, true, clients, Some(user));
    assert OwnedIds(h.table, OwnerOf, user.id) == OwnedIds(clients, OwnerOf, user.id) + {FreshId(clients)};
  }

  /** `EditModel.OnGetAsync` and `DetailsModel.OnGetAsync`: the gate, then
      the six fields. Read only. */
  function EditGet(id: Option<int>, clients: Table<Client>, user: Option<User>): (r: Outcome<ClientForm>)
    ensures r == NotFound <==>
      id.None? || id.value !in clients || (user.Some? && clients[id.value].userId != Some(user.value.id))
    ensures r == Crash <==> id.Some? && id.value in clients && user.None?
    ensures r.Page? ==> clients[id.value].userId == Some(user.value.id) && r.view == FormOf(clients[id.value])
  {
    match Gate(id, clients, user, OwnerOf)
    case Page(c) => Page(FormOf(c))
    case NotFound => NotFound
    case Crash => Crash
  }

  /** `DetailsModel.OnGetAsync`: the same gate and fields as the Edit GET. */
  function DetailsGet(id: Option<int>, clients: Table<Client>, user: Option<User>): (r: Outcome<ClientForm>)
    ensures r == EditGet(id, clients, user)
    ensures r.Page? ==> clients[id.value].userId == Some(user.value.id)
  {
    EditGet(id, clients, user)
  }

  /** `EditModel.OnPostAsync`: the form's fields under the posted key, owned
      by the signed-in user, replace the stored row. A key with no row fails
      the save with a concurrency error, which the page answers with 404. */
  function EditPost(form: ClientForm, valid: bool, clients: Table<Client>, user: Option<User>): (h: Handled<Client, ClientForm>)
    ensures !valid ==> h == Handled(Page(form), clients)
    ensures valid && user.None? ==> h == Handled(Crash, clients)
    ensures valid && user.Some? && form.id !in clients ==> h == Handled(NotFound, clients)
    ensures valid && user.Some? && form.id in clients ==>
      && h.outcome == RedirectToIndex
      && h.table == clients[form.id := RecordOf(form, user.value.id)]
  {
    if !valid then Handled(Page(form), clients)
    else if user.None? then Handled(Crash, clients)
    else if form.id !in clients then Handled(NotFound, clients)
    else Handled(RedirectToIndex, clients[form.id := RecordOf(form, user.value.id)])
  }

  /** The Edit POST has no owner check, but it stamps the poster as owner:
      posting another user's key takes that client over. */
  lemma EditPostTakesOver(form: ClientForm, clients: Table<Client>, user: User)
    requires form.id in clients
    ensures var h := EditPost(form, true, clients, Some(user));
      && h.table[form.id].userId == Some(user.id)
      && form.id in OwnedIds(h.table, OwnerOf, user.id)
  {
  }

  /** `DeleteModel.OnGetAsync`: the first client with both the key and the
      owner; otherwise 404. A missing user is dereferenced and throws. */
  function DeleteGet(id: Option<int>, clients: Table<Client>, user: Option<User>): (r: Outcome<Client>)
    ensures id.None? ==> r == NotFound
    ensures id.Some? && user.None? ==> r == Crash
    ensures r.Page? <==> id.Some? && user.Some? && id.value in OwnedIds(clients, OwnerOf, user.value.id)
    ensures r.Page? ==> r.view == clients[id.value]
    ensures id.Some? && user.Some? && !r.Page? ==> r == NotFound
  {
    if id.None? then NotFound
    else if user.None? then Crash
    else if id.value in clients && clients[id.value].userId == Some(user.value.id) then Page(clients[id.value])
    else NotFound
  }

  /** `DeleteModel.OnPostAsync`: no owner check. */
  function DeleteClient(id: Option<int>, clients: Table<Client>): (h: Handled<Client, ()>)
    ensures id.None? ==> h == Handled(NotFound, clients)
    ensures id.Some? ==> h.outcome == RedirectToIndex && h.table == clients - {id.value}
  {
    var h := DeletePost(id, clients);
    assert id.Some? ==> h.table == clients - {id.value};
    h
  }

  /** `IndexModel.OnGetAsync` of the Clients pages: the user's clients,
      whole. A missing user is dereferenced and throws. Read only. */
  function IndexGet(clients: Table<Client>, user: Option<User>): (r: Outcome<seq<Client>>)
    ensures r.Crash? <==> user.None?
    ensures r.Page? ==> r.view == ListOwned(clients, OwnerOf, user.value.id)
    ensures r.Page? ==> forall i :: 0 <= i < |r.view| ==> r.view[i].userId == Some(user.value.id)
    ensures r.Page? ==> forall id :: id in clients && clients[id].userId == Some(user.value.id) ==> clients[id] in r.view
    ensures !r.NotFound? && !r.RedirectToIndex?
  {
    if user.None? then Crash
    else Page(ListOwned(clients, OwnerOf, user.value.id))
  }

  /** The six fields of each client, in order. */
  function FormsOf(cs: seq<Client>): (r: seq<ClientForm>)
    ensures |r| == |cs|
    ensures forall i :: 0 <= i < |cs| ==> r[i] == FormOf(cs[i])
  {
    seq(|cs|, i requires 0 <= i < |cs| => FormOf(cs[i]))
  }

  /** The home page (`src/Pages/Index.cshtml.cs`): for a signed-in user that
      the store knows, the six fields of each of their clients; otherwise
      `Clients` stays null. */
  function HomeIndex(authenticated: bool, clients: Table<Client>, user: Option<User>): (r: Option<seq<ClientForm>>)
    ensures r.Some? <==> authenticated && user.Some?
    ensures r.Some? ==> |r.value| == |OwnedIds(clients, OwnerOf, user.value.id)|
  {
    if !authenticated || user.None? then None
    else Some(FormsOf(ListOwned(clients, OwnerOf, user.value.id)))
  }

  /** Every client the home page shows belongs to the user. */
  lemma HomeShowsOnlyOwned(clients: Table<Client>, user: User, i: int)
    requires 0 <= i < |OwnedIds(clients, OwnerOf, user.id)|
    ensures exists id :: id in clients && clients[id].userId == Some(user.id)
                         && FormOf(clients[id]) == HomeIndex(true, clients, Some(user)).value[i]
  {
    var owned := ListOwned(clients, OwnerOf, user.id);
    assert |HomeIndex(true, clients, Some(user)).value| == |owned|;
    assert OwnerOf(owned[i]) == Some(user.id);
    var id :| id in clients && clients[id] == owned[i];
    assert FormsOf(owned)[i] == FormOf(clients[id]);
  }

  /** Every client the user owns is on the home page. */
  lemma HomeShowsAllOwned(clients: Table<Client>, user: User, id: int)
    requires id in clients && clients[id].userId == Some(user.id)
    ensures FormOf(clients[id]) in HomeIndex(true, clients, Some(user)).value
  {
    var owned := ListOwned(clients, OwnerOf, user.id);
    var home := FormsOf(owned);
    assert HomeIndex(true, clients, Some(user)).value == home;
    assert OwnerOf(clients[id]) == Some(user.id);
    var c := clients[id];
    assert c in owned;
    var k :| 0 <= k < |owned| && owned[k] == c;
    assert home[k] == FormOf(c);
  }

  /** The home page lists exactly what the Clients list shows, field by
      field. */
  lemma HomeMatchesClientList(clients: Table<Client>, user: User)
    ensures var home := HomeIndex(true, clients, Some(user)).value;
      var list := IndexGet(clients, Some(user)).view;
      |home| == |list| && forall i :: 0 <= i < |list| ==> home[i] == FormOf(list[i])
  {
  }
}

=== FILE: common.dfy ===
/** Values shared by every part of the model: the stand-in for C#'s `null`,
    and the string predicates the tool borrows from .NET and IdentityModel. */
module Common {

  /** A C# reference that may be `null`: `None` is `null`. */
  datatype Option<+T> = None | Some(value: T) {
    function GetOr(default: T): T {
      match this
      case Some(v) => v
      case None => default
    }
  }

  /** `Char.IsWhiteSpace`: the Unicode space, line and paragraph separators
      plus U+0009..U+000D and U+0085. */
  predicate IsWhiteSpace(c: char) {
    var n := c as int;
    || n == 0x20 || (0x09 <= n <= 0x0D) || n == 0x85 || n == 0xA0
    || n == 0x1680 || (0x2000 <= n <= 0x200A) || n == 0x2028 || n == 0x2029
    || n == 0x202F || n == 0x205F || n == 0x3000
  }

  /** `string.IsNullOrEmpty`. */
  predicate IsNullOrEmpty(s: Option<string>) {
    s.None? || |s.value| == 0
  }

  /** `string.IsNullOrWhiteSpace`, which is also IdentityModel's `IsMissing`. */
  predicate IsNullOrWhiteSpace(s: Option<string>) {
    s.None? || forall i :: 0 <= i < |s.value| ==> IsWhiteSpace(s.value[i])
  }

  /** IdentityModel's `IsMissing`. */
  predicate IsMissing(s: Option<string>) {
    IsNullOrWhiteSpace(s)
  }

  /** IdentityModel's `IsPresent`. */
  predicate IsPresent(s: Option<string>) {
    !IsNullOrWhiteSpace(s)
  }

  lemma BlankIsEmptyOrWhiteSpace(s: Option<string>)
    ensures IsNullOrEmpty(s) ==> IsNullOrWhiteSpace(s)
    ensures IsNullOrWhiteSpace(s) && s.Some? && |s.value| > 0 ==> IsWhiteSpace(s.value[0])
  {
  }

  predicate IsPrefix(p: string, s: string) {
    |p| <= |s| && s[..|p|] == p
  }

  predicate IsSuffix(p: string, s: string) {
    |p| <= |s| && s[|s| - |p|..] == p
  }

  /** IdentityModel's `EnsureTrailingSlash`: appends "/" unless the string
      already ends with one. The library's source is not part of this model;
      this is the behaviour the tool relies on. */
  function EnsureTrailingSlash(url: string): (r: string)
    ensures IsPrefix(url, r)
    ensures |r| > 0 && r[|r| - 1] == '/'
    ensures |r| <= |url| + 1
    ensures |url| > 0 && url[|url| - 1] == '/' ==> r == url
  {
    if |url| > 0 && url[|url| - 1] == '/' then url else url + "/"
  }

  lemma EnsureTrailingSlashIdempotent(url: string)
    ensures EnsureTrailingSlash(EnsureTrailingSlash(url)) == EnsureTrailingSlash(url)
  {
  }

  /** The first value stored under `key` in an ordered list of name/value pairs. */
  function Lookup(pairs: seq<(string, string)>, key: string): (r: Option<string>)
    ensures r.Some? <==> exists i :: 0 <= i < |pairs| && pairs[i].0 == key
    ensures r.Some? ==> exists i :: 0 <= i < |pairs| && pairs[i] == (key, r.value)
  {
    if |pairs| == 0 then None
    else if pairs[0].0 == key then Some(pairs[0].1)
    else
      var rest := Lookup(pairs[1..], key);
      assert forall i :: 0 < i < |pairs| ==> pairs[i] == pairs[1..][i - 1];
      rest
  }

  /** A name finds the value of its first occurrence. */
  lemma {:induction false} LookupFirst(pairs: seq<(string, string)>, i: int)
    requires 0 <= i < |pairs|
    requires forall j :: 0 <= j < i ==> pairs[j].0 != pairs[i].0
    ensures Lookup(pairs, pairs[i].0) == Some(pairs[i].1)
    decreases i
  {
    if i > 0 {
      assert pairs[1..][i - 1] == pairs[i];
      LookupFirst(pairs[1..], i - 1);
    }
  }

  /** Every name occurs at most once. */
  predicate UniqueKeys(pairs: seq<(string, string)>) {
    forall i, j :: 0 <= i < j < |pairs| ==> pairs[i].0 != pairs[j].0
  }

  /** Appending a pair changes only the lookup of a name not yet present. */
  lemma {:induction false} LookupAppend(pairs: seq<(string, string)>, k: string, v: string, key: string)
    ensures Lookup(pairs + [(k, v)], key) ==
      if Lookup(pairs, key).Some? then Lookup(pairs, key)
      else if key == k then Some(v)
      else None
    decreases |pairs|
  {
    var ext := pairs + [(k, v)];
    if |pairs| == 0 {
      assert ext == [(k, v)];
    } else {
      assert ext[0] == pairs[0];
      assert ext[1..] == pairs[1..] + [(k, v)];
      LookupAppend(pairs[1..], k, v, key);
    }
  }

  /** The keys of an ordered list of name/value pairs. */
  function Keys(pairs: seq<(string, string)>): (r: set<string>)
    ensures forall k :: k in r <==> Lookup(pairs, k).Some?
  {
    set i | 0 <= i < |pairs| :: pairs[i].0
  }
}

=== FILE: discovery.dfy ===
/** The OpenID Connect discovery endpoint (`OpenIdConfigController.OnGet`,
    sections 3 and 4 of OpenID Connect Discovery 1.0): the tool publishes its
    issuer, taken from the request's scheme and host, and where its JWK Set
    lives. Building a `Uri` is a parameter. */
module Discovery {
  import opened Common
  import Jwks

  /** The route of the document, relative to the site root. */
  const OidcWellknownConfigUri := ".well-known/openid-configuration"

  /** The two members the tool's document carries. */
  datatype OpenIdConfig = OpenIdConfig(issuer: string, jwksUri: string)

  /** `OnGet`. `absoluteUri` stands for `new Uri(s).AbsoluteUri`. */
  function OnGet(scheme: string, host: string, absoluteUri: string -> string): (d: OpenIdConfig)
    ensures d.issuer == absoluteUri(scheme + "://" + host)
    ensures IsPrefix(d.issuer, d.jwksUri)
    ensures IsSuffix("/" + Jwks.JwksUri, d.jwksUri)
    ensures |d.jwksUri| <= |d.issuer| + 1 + |Jwks.JwksUri|
  {
    var issuer := absoluteUri(scheme + "://" + host);
    var base := EnsureTrailingSlash(issuer);
    var jwksUri := base + Jwks.JwksUri;
    assert jwksUri[|jwksUri| - |"/" + Jwks.JwksUri|..] == [base[|base| - 1]] + Jwks.JwksUri;
    assert jwksUri[..|issuer|] == base[..|issuer|];
    OpenIdConfig(issuer, jwksUri)
  }

  /** The JWK Set URI is the issuer with the JWK Set route as its path: for
      an issuer that already ends in "/" (an `AbsoluteUri` of a bare host
      does), the route is appended directly. */
  lemma JwksUriUnderIssuer(scheme: string, host: string, absoluteUri: string -> string)
    ensures var d := OnGet(scheme, host, absoluteUri);
      d.jwksUri == EnsureTrailingSlash(d.issuer) + Jwks.JwksUri
    ensures var d := OnGet(scheme, host, absoluteUri);
      |d.issuer| > 0 && d.issuer[|d.issuer| - 1] == '/' ==> d.jwksUri == d.issuer + Jwks.JwksUri
  {
  }

  /** The document depends on the request only through scheme and host. */
  lemma SameOriginSameDocument(s1: string, h1: string, s2: string, h2: string, absoluteUri: string -> string)
    requires s1 + "://" + h1 == s2 + "://" + h2
    ensures OnGet(s1, h1, absoluteUri) == OnGet(s2, h2, absoluteUri)
  {
  }
}

=== FILE: jwks.dfy ===
/** The JWK Set endpoint (`JwksController.OnGet`): one RSA signing key per
    registered client, in the order the clients are enumerated, as section 4
    of RFC 7517 and section 6.3.1 of RFC 7518 lay the members out. Parsing
    the PEM public key and base64url encoding (section 5 of RFC 4648) are
    parameters. */
module Jwks {
  import opened Common
  import opened Records

  /** The route of the endpoint, relative to the site root. */
  const JwksUri := "oauth2/jwks"

  /** `SecurityAlgorithms.RsaSha256`. */
  const RS256 := "RS256"
  /** `JsonWebAlgorithmsKeyTypes.RSA`. */
  const Rsa := "RSA"
  /** `JsonWebKeyUseNames.Sig`. */
  const Sig := "sig"

  /** The RSA public parameters of a parsed key, as big-endian bytes. */
  datatype RsaParameters = RsaParameters(exponent: seq<bv8>, modulus: seq<bv8>)

  /** A JSON Web Key with the members the endpoint sets. */
  datatype JsonWebKey = JsonWebKey(alg: string, kty: string, use: string, kid: string, e: string, n: string)

  /** The JSON result, or the exception thrown when a client's public key
      cannot be parsed. */
  datatype Response = KeySet(keys: seq<JsonWebKey>) | Crash

  /** The key published for one client whose public key parsed to `p`. */
  function KeyFor(c: KeyedClient, p: RsaParameters, encode: seq<bv8> -> string): (k: JsonWebKey)
    ensures k.alg == RS256 && k.kty == Rsa && k.use == Sig
    ensures k.kid == c.keyId
    ensures k.e == encode(p.exponent) && k.n == encode(p.modulus)
  {
    JsonWebKey(RS256, Rsa, Sig, c.keyId, encode(p.exponent), encode(p.modulus))
  }

  /** `OnGet`: the `foreach` over the clients. `parse` stands for
      `PemHelper.PublicKeyFromPemString` (`None` when it throws) and `encode`
      for `Base64UrlEncoder.Encode`. */
  function OnGet(clients: seq<KeyedClient>, parse: Option<string> -> Option<RsaParameters>,
                 encode: seq<bv8> -> string): (r: Response)
    ensures r.KeySet? <==> forall i :: 0 <= i < |clients| ==> parse(clients[i].publicKey).Some?
    ensures r.KeySet? ==> |r.keys| == |clients|
    ensures r.KeySet? ==> forall i :: 0 <= i < |clients| ==>
      r.keys[i] == KeyFor(clients[i], parse(clients[i].publicKey).value, encode)
    decreases |clients|
  {
    if |clients| == 0 then KeySet([])
    else match parse(clients[0].publicKey)
      case None => Crash
      case Some(p) =>
        match OnGet(clients[1..], parse, encode)
        case Crash =>
          assert exists i :: 1 <= i < |clients| && parse(clients[i].publicKey).None? by {
            var j :| 0 <= j < |clients[1..]| && parse(clients[1..][j].publicKey).None?;
            assert clients[1..][j] == clients[j + 1];
          }
          Crash
        case KeySet(rest) =>
          assert forall i :: 1 <= i < |clients| ==> clients[1..][i - 1] == clients[i];
          KeySet([KeyFor(clients[0], p, encode)] + rest)
  }

  /** With no clients the key set is empty. */
  lemma NoClientsNoKeys(parse: Option<string> -> Option<RsaParameters>, encode: seq<bv8> -> string)
    ensures OnGet([], parse, encode) == KeySet([])
  {
  }

  /** Registering one more client appends its key and leaves the others as
      they were. */
  lemma {:induction false} OnGetAppend(clients: seq<KeyedClient>, c: KeyedClient,
                                       parse: Option<string> -> Option<RsaParameters>, encode: seq<bv8> -> string)
    requires OnGet(clients, parse, encode).KeySet? && parse(c.publicKey).Some?
    ensures OnGet(clients + [c], parse, encode)
         == KeySet(OnGet(clients, parse, encode).keys + [KeyFor(c, parse(c.publicKey).value, encode)])
    decreases |clients|
  {
    if |clients| > 0 {
      assert (clients + [c])[1..] == clients[1..] + [c];
      OnGetAppend(clients[1..], c, parse, encode);
    }
  }

  /** The published key ids are the clients' key ids, in order: a verifier
      holding a token's `kid` finds the key of the client that signed it. */
  lemma KidsAreKeyIds(clients: seq<KeyedClient>, parse: Option<string> -> Option<RsaParameters>,
                      encode: seq<bv8> -> string, i: int)
    requires OnGet(clients, parse, encode).KeySet? && 0 <= i < |clients|
    ensures OnGet(clients, parse, encode).keys[i].kid == clients[i].keyId
    ensures clients[i].keyId in (set k | k in OnGet(clients, parse, encode).keys :: k.kid)
  {
    assert OnGet(clients, parse, encode).keys[i] in OnGet(clients, parse, encode).keys;
  }
}

=== FILE: jwt.dfy ===
/** What the tool sees of a JSON Web Token through `JwtSecurityTokenHandler`,
    and the part of the handler's `ValidateToken` the launch pages configure:
    lifetime with a clock skew, audience and issuer. Reading the compact form
    and checking the RS256 signature stay outside: callers pass their results
    in. Times are whole seconds since the epoch. */
module Jwt {
  import opened Common

  /** One payload claim. A claim whose JSON value is an array yields one
      `Claim` per element, all with the same name. */
  datatype Claim = Claim(name: string, value: string)

  /** A token as `ReadJwtToken` returns it: the `iss` claim, every claim,
      the `aud` values and the `nbf` and `exp` times when present. */
  datatype Token = Token(
    issuer: Option<string>,
    claims: seq<Claim>,
    audiences: seq<string>,
    notBefore: Option<int>,
    expires: Option<int>)

  /** What a posted string gives under `CanReadToken` and then
      `ReadJwtToken`: not shaped like a compact JWT (`CanReadToken` is
      false); shaped like one, but its parts do not decode, so `ReadJwtToken`
      throws; or the token. */
  datatype Reading = NotJwt | Malformed | Parsed(token: Token)

  /** `JwtSecurityToken.Issuer`: the `iss` claim, or the empty string when
      the payload has none. It is never null. */
  function IssuerOf(t: Token): (s: string)
    ensures t.issuer.Some? ==> s == t.issuer.value
    ensures t.issuer.None? ==> s == ""
  {
    t.issuer.GetOr("")
  }

  /** The values of the claims called `name`, in payload order. */
  function Values(claims: seq<Claim>, name: string): (r: seq<string>)
    ensures |r| <= |claims|
    ensures forall v :: v in r <==> Claim(name, v) in claims
    decreases |claims|
  {
    if |claims| == 0 then []
    else
      var rest := Values(claims[1..], name);
      assert forall c :: c in claims <==> c == claims[0] || c in claims[1..];
      if claims[0].name == name then [claims[0].value] + rest else rest
  }

  /** Two claims called `name` sit at different positions. */
  ghost predicate Repeated(claims: seq<Claim>, name: string) {
    exists i, j :: 0 <= i < j < |claims| && claims[i].name == name && claims[j].name == name
  }

  /** `Values` finds something exactly when some claim has the name. */
  lemma ValuesNonEmpty(claims: seq<Claim>, name: string)
    ensures Values(claims, name) != [] <==> exists k :: 0 <= k < |claims| && claims[k].name == name
  {
    var vs := Values(claims, name);
    if vs != [] {
      assert vs[0] in vs;
      assert Claim(name, vs[0]) in claims;
    }
    if exists k :: 0 <= k < |claims| && claims[k].name == name {
      var k :| 0 <= k < |claims| && claims[k].name == name;
      assert Claim(name, claims[k].value) in claims;
      assert claims[k].value in vs;
    }
  }

  /** A name is repeated in a list when it is repeated in the tail, or when
      the head has it and so does some claim of the tail. */
  lemma RepeatedSplit(claims: seq<Claim>, name: string)
    requires |claims| > 0
    ensures Repeated(claims, name) <==>
      || Repeated(claims[1..], name)
      || (claims[0].name == name && exists k :: 0 <= k < |claims[1..]| && claims[1..][k].name == name)
  {
    var tail := claims[1..];
    if Repeated(claims, name) {
      var i, j :| 0 <= i < j < |claims| && claims[i].name == name && claims[j].name == name;
      if i == 0 {
        assert tail[j - 1].name == name;
      } else {
        assert tail[i - 1].name == name && tail[j - 1].name == name;
      }
    }
    if Repeated(tail, name) {
      var i, j :| 0 <= i < j < |tail| && tail[i].name == name && tail[j].name == name;
      assert claims[i + 1] == tail[i] && claims[j + 1] == tail[j];
    }
    if claims[0].name == name && exists k :: 0 <= k < |tail| && tail[k].name == name {
      var k :| 0 <= k < |tail| && tail[k].name == name;
      assert claims[k + 1].name == name;
    }
  }

  /** `Values` finds two values exactly when the name is repeated. */
  lemma {:induction false} ValuesRepeated(claims: seq<Claim>, name: string)
    ensures |Values(claims, name)| >= 2 <==> Repeated(claims, name)
    decreases |claims|
  {
    if |claims| > 0 {
      ValuesRepeated(claims[1..], name);
      ValuesNonEmpty(claims[1..], name);
      RepeatedSplit(claims, name);
    }
  }

  /** The outcomes of `Claims.SingleOrDefault(c => c.Type == name)?.Value`:
      no such claim (`null`), its value, or the exception LINQ throws when
      more than one claim matches. */
  datatype Single = NoClaim | OneClaim(value: string) | ManyClaims

  function SingleClaim(claims: seq<Claim>, name: string): (r: Single)
    ensures r.NoClaim? <==> forall c :: c in claims ==> c.name != name
    ensures r.OneClaim? ==> Claim(name, r.value) in claims
    ensures r.ManyClaims? <==> Repeated(claims, name)
  {
    var vs := Values(claims, name);
    ValuesRepeated(claims, name);
    if |vs| == 0 then
      assert forall c :: c in claims && c.name == name ==> c.value in vs;
      NoClaim
    else if |vs| == 1 then
      assert vs[0] in vs;
      OneClaim(vs[0])
    else
      ManyClaims
  }

  /** Why `ValidateToken` throws, in the order the handler checks. */
  datatype Failure =
    | InvalidSignature
    | NoExpiration
    | InvalidLifetime
    | NotYetValid
    | Expired
    | InvalidAudience
    | NoIssuer
    | InvalidIssuer

  /** The `TokenValidationParameters` both launch pages set: one valid
      issuer, the valid audiences, a clock skew in seconds; signed tokens
      required; lifetime, audience and issuer validated. */
  datatype Parameters = Parameters(validIssuer: string, validAudiences: seq<string>, clockSkew: int)

  /** The lifetime rule: `exp` is required, `nbf` may not follow `exp`, and
      `now` must lie in [nbf - skew, exp + skew]. */
  function LifetimeFailure(nbf: Option<int>, exp: Option<int>, now: int, skew: int): (r: Option<Failure>)
    ensures r.None? <==>
      && exp.Some?
      && (nbf.Some? ==> nbf.value <= exp.value && nbf.value - skew <= now)
      && now <= exp.value + skew
  {
    if exp.None? then Some(NoExpiration)
    else if nbf.Some? && nbf.value > exp.value then Some(InvalidLifetime)
    else if nbf.Some? && nbf.value > now + skew then Some(NotYetValid)
    else if exp.value < now - skew then Some(Expired)
    else None
  }

  /** Some non-blank audience of the token is a valid audience. */
  predicate AudienceAccepted(audiences: seq<string>, valid: seq<string>) {
    exists i :: 0 <= i < |audiences| && !IsNullOrWhiteSpace(Some(audiences[i])) && audiences[i] in valid
  }

  /** `ValidateToken`: `None` when it returns, the failure when it throws.
      `signed` is whether the token's signature verifies under the
      configured key. */
  function Validate(token: Token, p: Parameters, signed: bool, now: int): (r: Option<Failure>)
    ensures r.None? <==>
      && signed
      && LifetimeFailure(token.notBefore, token.expires, now, p.clockSkew).None?
      && AudienceAccepted(token.audiences, p.validAudiences)
      && !IsNullOrWhiteSpace(token.issuer)
      && token.issuer.value == p.validIssuer
    ensures r == Some(NoIssuer) ==> IsNullOrWhiteSpace(token.issuer)
  {
    if !signed then Some(InvalidSignature)
    else if LifetimeFailure(token.notBefore, token.expires, now, p.clockSkew).Some? then
      LifetimeFailure(token.notBefore, token.expires, now, p.clockSkew)
    else if !AudienceAccepted(token.audiences, p.validAudiences) then Some(InvalidAudience)
    else if IsNullOrWhiteSpace(token.issuer) then Some(NoIssuer)
    else if token.issuer.value != p.validIssuer then Some(InvalidIssuer)
    else None
  }
}

=== FILE: launch.dfy ===
/** The launch endpoint of `src/Pages/Tool.cshtml.cs`: the platform posts
    the id_token (OAuth 2.0 Form Post Response Mode) and the tool decides
    whether to show the tool page. The gates run in order; the token's
    signature, lifetime, audience and issuer are then checked by the JWT
    handler with parameters the page builds. */
module Launch {
  import opened Common
  import opened Jwt

  /** `TimeSpan.FromMinutes(5.0)`, in seconds. */
  const ClockSkew := 300

  /** The name of the claim the tool requires. */
  const NonceClaim := "nonce"

  /** The HTTP results of `OnPost`; `ServerError` is an exception the
      handler does not catch. */
  datatype Outcome = BadRequest | Unauthorized | Page | ServerError

  /** The posted form field and the request's display URL. `None` is an
      absent `id_token`. */
  datatype LaunchRequest = LaunchRequest(idToken: Option<string>, displayUrl: string)

  /** The validation parameters the page builds: the token's own issuer as
      the only valid issuer, the display URL as the only valid audience. */
  function ParametersFor(issuer: string, displayUrl: string): Parameters {
    Parameters(issuer, [displayUrl], ClockSkew)
  }

  /** The token carries exactly one `nonce` claim, and its value is not empty. */
  ghost predicate HasNonce(t: Token) {
    && (exists v :: Claim(NonceClaim, v) in t.claims && v != "")
    && !Repeated(t.claims, NonceClaim)
  }

  /** When the tool page is shown, as one conjunction: a non-empty token
      that reads, a non-blank issuer and a single non-empty nonce, a valid
      signature, a lifetime window around `now` widened by the skew, and the
      display URL among its audiences. */
  ghost predicate Accepted(req: LaunchRequest, read: string -> Reading, verify: string -> bool, now: int) {
    && req.idToken.Some? && req.idToken.value != ""
    && read(req.idToken.value).Parsed?
    && var t := read(req.idToken.value).token;
    && !IsNullOrWhiteSpace(t.issuer)
    && HasNonce(t)
    && verify(req.idToken.value)
    && t.expires.Some?
    && (t.notBefore.Some? ==> t.notBefore.value <= t.expires.value && t.notBefore.value - ClockSkew <= now)
    && now <= t.expires.value + ClockSkew
    && (exists i :: 0 <= i < |t.audiences| && t.audiences[i] == req.displayUrl && !IsNullOrWhiteSpace(Some(req.displayUrl)))
  }

  /** `OnPost`. `read` stands for `CanReadToken` followed by `ReadJwtToken`,
      `verify` for the RS256 check under the page's embedded public key, and
      `now` for the clock. The page's `issuer == null` test reads
      `JwtSecurityToken.Issuer`, which is never null (`IssuerOf`), so that
      gate never refuses: a token without `iss` goes on to the nonce test and
      then fails validation. */
  function OnPost(req: LaunchRequest, read: string -> Reading, verify: string -> bool, now: int): (r: Outcome)
    ensures r == BadRequest <==> IsNullOrEmpty(req.idToken) || read(req.idToken.value).NotJwt?
    ensures r == ServerError <==>
      && !IsNullOrEmpty(req.idToken)
      && (|| read(req.idToken.value).Malformed?
          || (read(req.idToken.value).Parsed? && Repeated(read(req.idToken.value).token.claims, NonceClaim)))
    ensures r == Page <==> Accepted(req, read, verify, now)
    ensures r == Unauthorized <==>
      && !IsNullOrEmpty(req.idToken)
      && read(req.idToken.value).Parsed?
      && !Repeated(read(req.idToken.value).token.claims, NonceClaim)
      && !Accepted(req, read, verify, now)
  {
    if IsNullOrEmpty(req.idToken) then BadRequest
    else match read(req.idToken.value)
      case NotJwt => BadRequest
      case Malformed => ServerError
      case Parsed(token) =>
        var issuer := IssuerOf(token);
        match SingleClaim(token.claims, NonceClaim)
        case ManyClaims => ServerError
        case NoClaim => Unauthorized
        case OneClaim(nonce) =>
          if nonce == "" then Unauthorized
          else
            var p := ParametersFor(issuer, req.displayUrl);
            assert AudienceAccepted(token.audiences, p.validAudiences) <==>
              exists i :: 0 <= i < |token.audiences| && token.audiences[i] == req.displayUrl
                          && !IsNullOrWhiteSpace(Some(req.displayUrl));
            match Validate(token, p, verify(req.idToken.value), now)
            case Some(_) => Unauthorized
            case None => Page
  }

  /** The early gates, in order: an empty form field and a string that is
      not a JWT are bad requests; one that passes `CanReadToken` but does not
      decode throws; a token without a single non-empty nonce is
      unauthorized. A token without `iss` is never shown the tool: it is
      unauthorized, or it throws on a repeated nonce. */
  lemma LaunchGateOrder(req: LaunchRequest, read: string -> Reading, verify: string -> bool, now: int)
    ensures IsNullOrEmpty(req.idToken) ==> OnPost(req, read, verify, now) == BadRequest
    ensures !IsNullOrEmpty(req.idToken) && read(req.idToken.value).NotJwt? ==>
      OnPost(req, read, verify, now) == BadRequest
    ensures !IsNullOrEmpty(req.idToken) && read(req.idToken.value).Malformed? ==>
      OnPost(req, read, verify, now) == ServerError
    ensures !IsNullOrEmpty(req.idToken) && read(req.idToken.value).Parsed? ==>
      var t := read(req.idToken.value).token;
      && (!Repeated(t.claims, NonceClaim) && !HasNonce(t) ==> OnPost(req, read, verify, now) == Unauthorized)
      && (t.issuer.None? && !Repeated(t.claims, NonceClaim) ==> OnPost(req, read, verify, now) == Unauthorized)
      && (t.issuer.None? && Repeated(t.claims, NonceClaim) ==> OnPost(req, read, verify, now) == ServerError)
  {
  }

  /** No registration is consulted: a token accepted under one issuer is
      accepted under any other non-blank issuer. */
  lemma AnyIssuerAccepted(req: LaunchRequest, read: string -> Reading, verify: string -> bool, now: int, other: string)
    requires OnPost(req, read, verify, now) == Page
    requires !IsNullOrWhiteSpace(Some(other))
    ensures var raw := req.idToken.value;
      var forged := read(raw).token.(issuer := Some(other));
      OnPost(req, s => if s == raw then Parsed(forged) else read(s), verify, now) == Page
  {
    var raw := req.idToken.value;
    var forged := read(raw).token.(issuer := Some(other));
    var read' := s => if s == raw then Parsed(forged) else read(s);
    assert read'(raw) == Parsed(forged);
    assert HasNonce(forged);
  }

  /** Acceptance never depends on which nonce the token carries: the value
      is checked for presence only, never matched against the state table. */
  lemma NonceValueIgnored(req: LaunchRequest, read: string -> Reading, verify: string -> bool, now: int, other: string)
    requires OnPost(req, read, verify, now) == Page
    requires other != ""
    ensures var raw := req.idToken.value;
      var t := read(raw).token;
      var t' := t.(claims := [Claim(NonceClaim, other)] + Without(t.claims, NonceClaim));
      OnPost(req, s => if s == raw then Parsed(t') else read(s), verify, now) == Page
  {
    var raw := req.idToken.value;
    var t := read(raw).token;
    var cs := [Claim(NonceClaim, other)] + Without(t.claims, NonceClaim);
    var t' := t.(claims := cs);
    var read' := s => if s == raw then Parsed(t') else read(s);
    assert read'(raw) == Parsed(t');
    assert Claim(NonceClaim, other) in cs;
    assert forall k :: 0 < k < |cs| ==> cs[k] in Without(t.claims, NonceClaim);
    assert !Repeated(cs, NonceClaim);
  }

  /** The claims not called `name`, in order. */
  function Without(claims: seq<Claim>, name: string): (r: seq<Claim>)
    ensures forall c :: c in r <==> c in claims && c.name != name
    decreases |claims|
  {
    if |claims| == 0 then []
    else
      var rest := Without(claims[1..], name);
      assert forall c :: c in claims <==> c == claims[0] || c in claims[1..];
      if claims[0].name == name then rest else [claims[0]] + rest
  }
}

=== FILE: launch_legacy.dfy ===
/** The launch page of the earlier snapshot, `Pages/Tool.cshtml.cs`: the same
    gates as `Launch`, but each refusal sets the page's `Error` text and the
    page is always shown; `LtiRequest` is built from the payload only when
    every check passes. */
module LaunchLegacy {
  import opened Common
  import opened Jwt
  import Launch

  /** Why the page refuses the token. */
  datatype Rejection =
    | MissingIdToken
    | Unreadable
    | MissingIssuer
    | IssuerNotRecognized(issuer: string)
    | MissingNonce
    | Invalid(failure: Failure)

  /** The gates' verdict: a refusal, with the token when it was read; an
      exception the page does not catch; or acceptance. */
  datatype Verdict = Refused(why: Rejection, token: Option<Token>) | Crash | Accept(accepted: Token)

  /** The gates of `OnPost` in source order. `read` is `CanReadToken`
      followed by `ReadJwtToken`; the latter stands outside any `try`, so a
      string that passes the first but does not decode throws. The issuer
      (`Token.Issuer`, see `IssuerOf`) is checked twice with the same
      condition; the second test stands where the page would look the
      issuer up. */
  function Check(idToken: Option<string>, displayUrl: string, read: string -> Reading,
                 verify: string -> bool, now: int): (v: Verdict)
    ensures v.Accept? ==> idToken.Some? && read(idToken.value) == Parsed(v.accepted)
    ensures v.Refused? && v.why != MissingIdToken && v.why != Unreadable ==>
      idToken.Some? && read(idToken.value).Parsed? && v.token == Some(read(idToken.value).token)
    ensures v.Crash? <==>
      && !IsNullOrEmpty(idToken)
      && (|| read(idToken.value).Malformed?
          || (&& read(idToken.value).Parsed?
              && IssuerOf(read(idToken.value).token) != ""
              && Repeated(read(idToken.value).token.claims, Launch.NonceClaim)))
  {
    if IsNullOrEmpty(idToken) then Refused(MissingIdToken, None)
    else match read(idToken.value)
      case NotJwt => Refused(Unreadable, None)
      case Malformed => Crash
      case Parsed(t) =>
        var issuer := IssuerOf(t);
        if issuer == "" then Refused(MissingIssuer, Some(t))
        else if issuer == "" then Refused(IssuerNotRecognized(issuer), Some(t))
        else match SingleClaim(t.claims, Launch.NonceClaim)
          case ManyClaims => Crash
          case NoClaim => Refused(MissingNonce, Some(t))
          case OneClaim(nonce) =>
            if nonce == "" then Refused(MissingNonce, Some(t))
            else match Validate(t, Launch.ParametersFor(issuer, displayUrl), verify(idToken.value), now)
              case Some(f) => Refused(Invalid(f), Some(t))
              case None => Accept(t)
  }

  /** The page's `Error` text for a refusal; `message` is the text of the
      exception `ValidateToken` throws. */
  function ErrorText(why: Rejection, message: Failure -> string): string {
    match why
    case MissingIdToken => "id_token is missing or empty"
    case Unreadable => "Cannot read id_token"
    case MissingIssuer => "Issuer is missing from id_token"
    case IssuerNotRecognized(issuer) => "Issuer '" + issuer + "' is not recognized."
    case MissingNonce => "Nonce is missing from id_token"
    case Invalid(f) => message(f)
  }

  /** The page's bound state after `OnPost`. */
  datatype ToolPage = ToolPage(error: Option<string>, token: Option<Token>, ltiRequest: Option<Token>)

  /** What the browser gets: the page, or an unhandled exception. */
  datatype Outcome = Shown(page: ToolPage) | ServerError

  /** `OnPost`. */
  function OnPost(idToken: Option<string>, displayUrl: string, read: string -> Reading,
                  verify: string -> bool, now: int, message: Failure -> string): (r: Outcome)
    ensures r.Shown? ==> (r.page.error.None? <==> r.page.ltiRequest.Some?)
    ensures r.Shown? && r.page.ltiRequest.Some? ==> r.page.token == r.page.ltiRequest
    ensures r.Shown? && IsNullOrEmpty(idToken) ==>
      r.page == ToolPage(Some("id_token is missing or empty"), None, None)
  {
    match Check(idToken, displayUrl, read, verify, now)
    case Crash => ServerError
    case Refused(why, t) => Shown(ToolPage(Some(ErrorText(why, message)), t, None))
    case Accept(t) => Shown(ToolPage(None, Some(t), Some(t)))
  }

  /** The second issuer test can never fire: reaching it needs an issuer
      that the first test has just found non-empty. */
  lemma IssuerNotRecognizedUnreachable(idToken: Option<string>, displayUrl: string,
      read: string -> Reading, verify: string -> bool, now: int)
    ensures !Check(idToken, displayUrl, read, verify, now).Refused?
         || !Check(idToken, displayUrl, read, verify, now).why.IssuerNotRecognized?
  {
  }

  /** Each refusal before validation, with its text: an empty form field, an
      unreadable token, an empty issuer, a missing or empty nonce. */
  lemma LegacyRefusals(idToken: Option<string>, displayUrl: string, read: string -> Reading,
                       verify: string -> bool, now: int, message: Failure -> string)
    ensures var r := OnPost(idToken, displayUrl, read, verify, now, message);
      && (IsNullOrEmpty(idToken) ==> r == Shown(ToolPage(Some("id_token is missing or empty"), None, None)))
      && (!IsNullOrEmpty(idToken) && read(idToken.value).NotJwt? ==>
            r == Shown(ToolPage(Some("Cannot read id_token"), None, None)))
      && (!IsNullOrEmpty(idToken) && read(idToken.value).Malformed? ==> r == ServerError)
      && (!IsNullOrEmpty(idToken) && read(idToken.value).Parsed? && read(idToken.value).token.issuer.None? ==>
            r == Shown(ToolPage(Some("Issuer is missing from id_token"), Some(read(idToken.value).token), None)))
      && (!IsNullOrEmpty(idToken) && read(idToken.value).Parsed? && IsNullOrEmpty(read(idToken.value).token.issuer) ==>
            r == Shown(ToolPage(Some("Issuer is missing from id_token"), Some(read(idToken.value).token), None)))
      && (!IsNullOrEmpty(idToken) && read(idToken.value).Parsed? && !IsNullOrEmpty(read(idToken.value).token.issuer)
          && !Repeated(read(idToken.value).token.claims, Launch.NonceClaim)
          && !Launch.HasNonce(read(idToken.value).token) ==>
            r == Shown(ToolPage(Some("Nonce is missing from id_token"), Some(read(idToken.value).token), None)))
  {
  }

  /** A validation exception puts its message on the page and leaves
      `LtiRequest` unset. */
  lemma ValidationMessageShown(idToken: Option<string>, displayUrl: string, read: string -> Reading,
                               verify: string -> bool, now: int, message: Failure -> string)
    ensures var v := Check(idToken, displayUrl, read, verify, now);
      v.Refused? && v.why.Invalid? ==>
        OnPost(idToken, displayUrl, read, verify, now, message)
          == Shown(ToolPage(Some(message(v.why.failure)), v.token, None))
  {
  }

  /** Both snapshots accept the same launches: the earlier page builds
      `LtiRequest` exactly when the later one returns the tool page. They
      throw on the same inputs (a string that does not decode, a repeated
      nonce), except that the earlier page refuses an empty issuer before it
      looks at the nonce. */
  lemma SnapshotsAgree(idToken: Option<string>, displayUrl: string, read: string -> Reading,
                       verify: string -> bool, now: int, message: Failure -> string)
    ensures var r := OnPost(idToken, displayUrl, read, verify, now, message);
      var later := Launch.OnPost(Launch.LaunchRequest(idToken, displayUrl), read, verify, now);
      && (r.Shown? && r.page.ltiRequest.Some? <==> later == Launch.Page)
      && (r == ServerError <==>
            later == Launch.ServerError
            && !(read(idToken.value).Parsed? && IssuerOf(read(idToken.value).token) == ""))
  {
    if !IsNullOrEmpty(idToken) && read(idToken.value).Parsed? {
      var t := read(idToken.value).token;
      if IssuerOf(t) == "" {
        assert IsNullOrWhiteSpace(t.issuer);
        assert !Launch.Accepted(Launch.LaunchRequest(idToken, displayUrl), read, verify, now);
      }
    }
  }
}

=== FILE: line_items.dfy ===
/** The line-items view component (`LineItemsViewComponent.InvokeAsync`):
    from a launch token it asks for an access token, fetches the line items
    (Assignment and Grade Services), the course members (Names and Role
    Provisioning Services) and each line item's results, and fills the view
    model, stopping at the first failure with a status text. The HTTP calls
    are parameters; the rules between them are modelled here. */
module LineItems {
  import opened Common
  import Text
  import Ordering
  import Sorting

  /** The common stem of the LTI Advantage scope URIs, written in pieces so
      that the verifier can see which characters they contain. */
  const ImsSpec := "https://purl." + "imsglobal.org" + "/spec/"
  const ScopeSegment := "/scope/"

  /** "https://purl.imsglobal.org/spec/lti-ags/scope/lineitem" */
  const AgsLineItem := ImsSpec + "lti-ags" + ScopeSegment + "lineitem"
  /** "https://purl.imsglobal.org/spec/lti-ags/scope/result.readonly" */
  const AgsResultReadonly := ImsSpec + "lti-ags" + ScopeSegment + "result" + ".readonly"
  /** "https://purl.imsglobal.org/spec/lti-nrps/scope/contextmembership.readonly" */
  const NrpsMembershipReadonly := ImsSpec + "lti-nrps" + ScopeSegment + "context" + "membership" + ".readonly"

  /** The three scopes the component asks for. */
  const Scopes := [AgsLineItem, AgsResultReadonly, NrpsMembershipReadonly]

  /** `string.Join(" ", …)` of the three scopes: the `scope` value of the
      token request. */
  function RequestedScope(): (s: string) {
    Text.Join(Scopes, ' ')
  }

  /** The requested scope is the three scope values separated by single
      spaces: splitting it at spaces gives them back. */
  lemma RequestedScopeSplits()
    ensures Text.Split(RequestedScope(), ' ') == Scopes
  {
    assert forall i :: 0 <= i < |Scopes| ==> ' ' !in Scopes[i];
    Text.SplitJoin(Scopes, ' ');
  }

  /** The error text with which the reference platform reports success. */
  const Created := "Created"

  /** The status set when the token parameter is missing. */
  const MissingIdTokenStatus := "idToken is missing."
  /** The status set when the launch has no Assignment and Grade Services claim. */
  const NoAgsStatus := "Assignment and Grade Services not defined."
  /** The message of the `NullReferenceException` .NET throws on a null dereference. */
  const NullReferenceMessage := "Object reference not set to an instance of an object."

  /** The Assignment and Grade Services claim of the launch. */
  datatype Ags = Ags(lineItemUrl: Option<string>, lineItemsUrl: Option<string>)

  /** The launch claims the component reads: the AGS claim and the NRPS
      context membership URL, either of which may be absent. */
  datatype LtiClaims = LtiClaims(ags: Option<Ags>, nrps: Option<Nrps>)

  /** The Names and Role Provisioning Services claim of the launch. */
  datatype Nrps = Nrps(contextMembershipUrl: Option<string>)

  /** The token service's answer. */
  datatype TokenResult = TokenResult(isError: bool, error: Option<string>)

  /** An HTTP GET as the component sees it: a success with its deserialised
      body, a non-success status with its reason phrase (which may be null),
      or an exception (network, deserialisation) with its message. */
  datatype Response<T> = Ok(body: T) | NotSuccess(reason: Option<string>) | Thrown(message: string)

  datatype LineItem = LineItem(id: string, labelText: Option<string>, tag: Option<string>)

  /** A results container, kept opaque. */
  datatype ResultContainer = ResultContainer(results: seq<string>)

  datatype MyLineItem = MyLineItem(header: string, item: LineItem, results: Option<ResultContainer>)

  datatype Member = Member(userId: string, familyName: string, givenName: string)

  /** The view model. `None` fields are the nulls of a fresh `LineItemsModel`. */
  datatype Model = Model(
    idToken: Option<string>,
    ltiRequest: Option<LtiClaims>,
    lineItemUrl: Option<string>,
    lineItems: Option<seq<MyLineItem>>,
    members: Option<seq<(string, string)>>,
    status: Option<string>)

  const EmptyModel := Model(None, None, None, None, None, None)

  /** What the component renders: the view with its model (`None` when
      `View()` is called without one), or an exception it does not catch. */
  datatype View = Render(model: Option<Model>) | Crash

  /** A token error stops the component unless it is exactly "Created". */
  predicate TokenStops(t: TokenResult) {
    t.isError && t.error != Some(Created)
  }

  /** The header of a line item: its label when it has one, else its tag
      behind "Tag: " (a null tag interpolates as nothing). */
  function Header(item: LineItem): (h: string)
    ensures item.labelText.Some? ==> h == item.labelText.value
    ensures item.labelText.None? ==> IsPrefix("Tag: ", h) && h[5..] == item.tag.GetOr("")
  {
    if item.labelText.Some? then item.labelText.value
    else
      var h := "Tag: " + item.tag.GetOr("");
      assert h[..5] == "Tag: ";
      h
  }

  /** The line items as shown, each with its header and no results yet. */
  function WithHeaders(items: seq<LineItem>): (r: seq<MyLineItem>)
    ensures |r| == |items|
    ensures forall i :: 0 <= i < |r| ==> r[i] == MyLineItem(Header(items[i]), items[i], None)
  {
    seq(|items|, i requires 0 <= i < |items| => MyLineItem(Header(items[i]), items[i], None))
  }

  /** The URL of a line item's results: its id with one trailing slash, then
      "results". */
  function ResultsUrl(id: string): (u: string)
    ensures IsPrefix(id, u)
    ensures IsSuffix("/results", u)
    ensures |u| <= |id| + 8
    ensures |u| == |id| + (if IsSuffix("/", id) then 7 else 8)
  {
    var base := EnsureTrailingSlash(id);
    assert IsSuffix("/", id) <==> |id| > 0 && id[|id| - 1] == '/' by {
      if |id| > 0 {
        assert id[|id| - 1..] == [id[|id| - 1]];
      }
    }
    var u := base + "results";
    var n := |base|;
    assert base[n - 1..] == "/";
    assert u[n - 1..] == base[n - 1..] + "results";
    assert u[n - 1..] == "/results";
    assert |u| - |"/results"| == n - 1;
    assert u[..|id|] == base[..|id|];
    u
  }

  /** An id with or without its trailing slash names the same results. */
  lemma ResultsUrlIgnoresTrailingSlash(id: string)
    ensures ResultsUrl(EnsureTrailingSlash(id)) == ResultsUrl(id)
    ensures |id| > 0 && id[|id| - 1] != '/' ==> ResultsUrl(id) == ResultsUrl(id + "/")
  {
  }

  /** The member order: family name, then given name, both ordinal. */
  predicate MemberLe(a: Member, b: Member) {
    && Ordering.LexLe(a.familyName, b.familyName)
    && (a.familyName == b.familyName ==> Ordering.LexLe(a.givenName, b.givenName))
  }

  lemma MemberLeTotalPreorder()
    ensures Sorting.TotalPreorder(MemberLe)
  {
    forall a: Member, b: Member
      ensures MemberLe(a, b) || MemberLe(b, a)
    {
      Ordering.LexLeTotal(a.familyName, b.familyName);
      Ordering.LexLeTotal(a.givenName, b.givenName);
      if Ordering.LexLe(a.familyName, b.familyName) && Ordering.LexLe(b.familyName, a.familyName) {
        Ordering.LexLeAntisymmetric(a.familyName, b.familyName);
      }
    }
    forall a: Member, b: Member, c: Member | MemberLe(a, b) && MemberLe(b, c)
      ensures MemberLe(a, c)
    {
      Ordering.LexLeTransitive(a.familyName, b.familyName, c.familyName);
      if a.familyName == c.familyName {
        Ordering.LexLeAntisymmetric(a.familyName, b.familyName);
        Ordering.LexLeTransitive(a.givenName, b.givenName, c.givenName);
      }
    }
  }

  /** "Family, Given". */
  function DisplayName(m: Member): string {
    m.familyName + ", " + m.givenName
  }

  /** The position of the first member with user id `k`; `|ms|` when none has it. */
  function FirstIndex(ms: seq<Member>, k: string): (i: nat)
    ensures i <= |ms|
    ensures forall j :: 0 <= j < i ==> ms[j].userId != k
    ensures i < |ms| ==> ms[i].userId == k
    decreases |ms|
  {
    if |ms| == 0 then 0
    else if ms[0].userId == k then 0
    else
      var i := FirstIndex(ms[1..], k);
      assert forall j :: 0 < j <= i ==> ms[j] == ms[1..][j - 1];
      1 + i
  }

  /** What the dictionary holds for `k` after the `foreach`: its old entry,
      else the display name of the first member with that user id. */
  function AddedEntry(dict: seq<(string, string)>, ms: seq<Member>, k: string): Option<string> {
    if Lookup(dict, k).Some? then Lookup(dict, k)
    else if FirstIndex(ms, k) < |ms| then Some(DisplayName(ms[FirstIndex(ms, k)]))
    else None
  }

  /** The `foreach` that adds each member whose user id is not yet a key. */
  function AddMembers(dict: seq<(string, string)>, ms: seq<Member>): (r: seq<(string, string)>)
    ensures UniqueKeys(dict) ==> UniqueKeys(r)
    ensures forall k :: Lookup(r, k) == AddedEntry(dict, ms, k)
    decreases |ms|
  {
    if |ms| == 0 then dict
    else
      var m := ms[0];
      var next := if Lookup(dict, m.userId).Some? then dict else dict + [(m.userId, DisplayName(m))];
      var r := AddMembers(next, ms[1..]);
      AddMembersStep(dict, ms, next, r);
      r
  }

  lemma AddMembersStep(dict: seq<(string, string)>, ms: seq<Member>, next: seq<(string, string)>, r: seq<(string, string)>)
    requires |ms| > 0
    requires next == if Lookup(dict, ms[0].userId).Some? then dict else dict + [(ms[0].userId, DisplayName(ms[0]))]
    requires UniqueKeys(next) ==> UniqueKeys(r)
    requires forall k :: Lookup(r, k) == AddedEntry(next, ms[1..], k)
    ensures UniqueKeys(dict) ==> UniqueKeys(r)
    ensures forall k :: Lookup(r, k) == AddedEntry(dict, ms, k)
  {
    var m := ms[0];
    forall k ensures Lookup(r, k) == AddedEntry(dict, ms, k) {
      if Lookup(dict, m.userId).None? {
        LookupAppend(dict, m.userId, DisplayName(m), k);
      }
      if k != m.userId {
        var i := FirstIndex(ms[1..], k);
        if i < |ms[1..]| {
          assert ms[1..][i] == ms[i + 1];
        }
      }
    }
    if UniqueKeys(dict) && Lookup(dict, m.userId).None? {
      assert forall i :: 0 <= i < |dict| ==> dict[i].0 != m.userId;
    }
  }

  /** `membership.Members.OrderBy(FamilyName).ThenBy(GivenName)` folded
      into the user-id dictionary: one entry per user id, holding the
      display name of the member that sorts first among those with it. */
  function MemberMap(members: seq<Member>): (r: seq<(string, string)>)
    ensures UniqueKeys(r)
    ensures forall k :: Lookup(r, k).Some? <==> exists m :: m in members && m.userId == k
    ensures forall k :: Lookup(r, k).Some? ==>
      exists m :: && m in members && m.userId == k && Lookup(r, k) == Some(DisplayName(m))
                  && forall m' :: m' in members && m'.userId == k ==> MemberLe(m, m')
  {
    MemberLeTotalPreorder();
    var sorted := Sorting.SortBy(members, MemberLe);
    var r := AddMembers([], sorted);
    MemberMapEntries(members, sorted, r);
    r
  }

  lemma MemberMapEntries(members: seq<Member>, sorted: seq<Member>, r: seq<(string, string)>)
    requires multiset(sorted) == multiset(members) && Sorting.Sorted(sorted, MemberLe)
    requires UniqueKeys([]) ==> UniqueKeys(r)
    requires forall k :: Lookup(r, k) == AddedEntry([], sorted, k)
    ensures UniqueKeys(r)
    ensures forall k :: Lookup(r, k).Some? <==> exists m :: m in members && m.userId == k
    ensures forall k :: Lookup(r, k).Some? ==>
      exists m :: && m in members && m.userId == k && Lookup(r, k) == Some(DisplayName(m))
                  && forall m' :: m' in members && m'.userId == k ==> MemberLe(m, m')
  {
    forall m ensures m in members <==> m in sorted {
      assert m in members <==> m in multiset(members);
      assert m in sorted <==> m in multiset(sorted);
    }
    forall k ensures Lookup(r, k).Some? <==> exists m :: m in members && m.userId == k {
      if m :| m in members && m.userId == k {
        var j :| 0 <= j < |sorted| && sorted[j] == m;
        assert FirstIndex(sorted, k) <= j;
      }
    }
    forall k | Lookup(r, k).Some?
      ensures exists m :: && m in members && m.userId == k && Lookup(r, k) == Some(DisplayName(m))
                          && forall m' :: m' in members && m'.userId == k ==> MemberLe(m, m')
    {
      var i := FirstIndex(sorted, k);
      forall m' | m' in members && m'.userId == k
        ensures MemberLe(sorted[i], m')
      {
        var j :| 0 <= j < |sorted| && sorted[j] == m';
        if j == i {
          Ordering.LexLeReflexive(m'.familyName);
          Ordering.LexLeReflexive(m'.givenName);
        }
      }
      assert sorted[i] in members;
    }
  }

  /** How the results loop ended: every GET succeeded, or one failed with
      this status. */
  datatype Stop = Done | Stopped(status: Option<string>)

  datatype Fetch = Fetch(items: seq<MyLineItem>, stop: Stop)

  /** The status a failed GET leaves: the reason phrase (possibly null) or
      the exception's message. */
  function FailureStatus<T>(response: Response<T>): Option<string>
    requires !response.Ok?
  {
    match response
    case NotSuccess(reason) => reason
    case Thrown(message) => Some(message)
  }

  /** The URL the results loop asks for a line item. */
  function UrlOf(x: MyLineItem): string {
    ResultsUrl(x.item.id)
  }

  /** `r` is `items` with the first `k` filled with the results their GETs
      returned, all of which succeeded, and the rest unchanged. */
  ghost predicate FilledUpTo(items: seq<MyLineItem>, getResults: string -> Response<ResultContainer>,
                             r: seq<MyLineItem>, k: int) {
    && 0 <= k <= |items| && |r| == |items|
    && (forall i :: 0 <= i < k ==>
          && getResults(UrlOf(items[i])).Ok?
          && r[i] == items[i].(results := Some(getResults(UrlOf(items[i])).body)))
    && (forall i :: k <= i < |items| ==> r[i] == items[i])
  }

  /** What the results loop promises: every item keeps its header and line
      item; it completes exactly when every GET succeeds, filling every
      item; otherwise it stops at the first failing GET with that GET's
      status, the items before it filled and the rest untouched. */
  ghost predicate FetchContract(items: seq<MyLineItem>, getResults: string -> Response<ResultContainer>, r: Fetch) {
    && |r.items| == |items|
    && (forall i :: 0 <= i < |items| ==>
          r.items[i].header == items[i].header && r.items[i].item == items[i].item)
    && (r.stop.Done? <==> forall i :: 0 <= i < |items| ==> getResults(UrlOf(items[i])).Ok?)
    && (r.stop.Done? ==> FilledUpTo(items, getResults, r.items, |items|))
    && (r.stop.Stopped? ==>
          exists k :: (&& FilledUpTo(items, getResults, r.items, k) && k < |items|
                       && !getResults(UrlOf(items[k])).Ok?
                       && r.stop.status == FailureStatus(getResults(UrlOf(items[k])))))
  }

  /** The results loop: each line item in order gets the container its
      results URL returns, until the first GET that fails. */
  function FetchResults(items: seq<MyLineItem>, getResults: string -> Response<ResultContainer>): (r: Fetch)
    ensures FetchContract(items, getResults, r)
    decreases |items|
  {
    if |items| == 0 then Fetch([], Done)
    else
      var response := getResults(UrlOf(items[0]));
      if !response.Ok? then
        assert FilledUpTo(items, getResults, items, 0);
        Fetch(items, Stopped(FailureStatus(response)))
      else
        var rest := FetchResults(items[1..], getResults);
        FetchStep(items, getResults, rest);
        Fetch([items[0].(results := Some(response.body))] + rest.items, rest.stop)
  }

  lemma FetchStep(items: seq<MyLineItem>, getResults: string -> Response<ResultContainer>, rest: Fetch)
    requires |items| > 0 && getResults(UrlOf(items[0])).Ok?
    requires FetchContract(items[1..], getResults, rest)
    ensures FetchContract(items, getResults,
      Fetch([items[0].(results := Some(getResults(UrlOf(items[0])).body))] + rest.items, rest.stop))
  {
    var first := items[0].(results := Some(getResults(UrlOf(items[0])).body));
    var r := Fetch([first] + rest.items, rest.stop);
    ShiftedItems(items, rest.items, first);
    if rest.stop.Done? {
      FillStep(items, getResults, rest.items, |items| - 1);
    } else {
      var k :| && FilledUpTo(items[1..], getResults, rest.items, k) && k < |items[1..]|
               && !getResults(UrlOf(items[1..][k])).Ok?
               && rest.stop.status == FailureStatus(getResults(UrlOf(items[1..][k])));
      FillStep(items, getResults, rest.items, k);
      assert items[1..][k] == items[k + 1];
    }
    assert (r.stop.Done? <==> forall i :: 0 <= i < |items| ==> getResults(UrlOf(items[i])).Ok?) by {
      if !r.stop.Done? {
        var k :| FilledUpTo(items, getResults, r.items, k) && k < |items| && !getResults(UrlOf(items[k])).Ok?;
      }
    }
  }

  /** Prepending an item whose header and line item are those of `items[0]`
      to a list that matches `items[1..]` item by item. */
  lemma ShiftedItems(items: seq<MyLineItem>, rest: seq<MyLineItem>, first: MyLineItem)
    requires |items| > 0 && |rest| == |items| - 1
    requires first.header == items[0].header && first.item == items[0].item
    requires forall i :: 0 <= i < |rest| ==> rest[i].header == items[1..][i].header && rest[i].item == items[1..][i].item
    ensures forall i :: 0 <= i < |items| ==>
      ([first] + rest)[i].header == items[i].header && ([first] + rest)[i].item == items[i].item
  {
    forall i | 0 < i < |items|
      ensures ([first] + rest)[i].header == items[i].header && ([first] + rest)[i].item == items[i].item
    {
      assert ([first] + rest)[i] == rest[i - 1] && items[1..][i - 1] == items[i];
    }
  }

  lemma FillStep(items: seq<MyLineItem>, getResults: string -> Response<ResultContainer>,
                 rest: seq<MyLineItem>, k: int)
    requires |items| > 0 && getResults(UrlOf(items[0])).Ok?
    requires FilledUpTo(items[1..], getResults, rest, k)
    ensures FilledUpTo(items, getResults, [items[0].(results := Some(getResults(UrlOf(items[0])).body))] + rest, k + 1)
  {
    var r := [items[0].(results := Some(getResults(UrlOf(items[0])).body))] + rest;
    assert forall i :: 0 < i < |items| ==> items[1..][i - 1] == items[i] && r[i] == rest[i - 1];
  }

  /** The launch gets as far as the line-items GET: a token that reads,
      an AGS claim, and an access token that does not stop the component. */
  predicate ReachesLineItems(idToken: Option<string>, read: string -> Option<LtiClaims>, token: Option<TokenResult>) {
    && !IsMissing(idToken) && read(idToken.value).Some?
    && read(idToken.value).value.ags.Some?
    && token.Some? && !TokenStops(token.value)
  }

  /** The membership GET as the component meets it: without an NRPS claim,
      reading its URL dereferences null and throws. */
  function MembersResponse(lti: LtiClaims, getMembers: Option<string> -> Response<seq<Member>>): (r: Response<seq<Member>>)
    ensures lti.nrps.None? ==> r == Thrown(NullReferenceMessage)
    ensures lti.nrps.Some? ==> r == getMembers(lti.nrps.value.contextMembershipUrl)
  {
    if lti.nrps.None? then Thrown(NullReferenceMessage)
    else getMembers(lti.nrps.value.contextMembershipUrl)
  }

  /** The component's body. `read` stands for `ReadJwtToken` followed by the
      `LtiResourceLinkRequest` constructor (`None` when it throws); `token`
      is the token service's answer (`None` when it throws); the three
      `get` functions are the HTTP GETs by URL (a null URL included).
      `keepModel` chooses what the catch around the line-items GET renders:
      `false` is the code as written (`View()`), `true` the evident intent
      (`View(model)`). */
  function Run(idToken: Option<string>, read: string -> Option<LtiClaims>, token: Option<TokenResult>,
               getLineItems: Option<string> -> Response<seq<LineItem>>,
               getMembers: Option<string> -> Response<seq<Member>>,
               getResults: string -> Response<ResultContainer>,
               keepModel: bool): (v: View)
    ensures IsMissing(idToken) ==> v == Render(Some(EmptyModel.(status := Some(MissingIdTokenStatus))))
    ensures v == Crash <==>
      && !IsMissing(idToken)
      && (read(idToken.value).None? || (read(idToken.value).value.ags.Some? && token.None?))
    ensures v.Render? && v.model.Some? && !IsMissing(idToken) ==>
      && v.model.value.idToken == idToken
      && v.model.value.ltiRequest == read(idToken.value)
    ensures v.Render? && v.model.Some? && v.model.value.lineItems.Some? ==>
      && !IsMissing(idToken)
      && var lti := read(idToken.value).value;
      && lti.ags.Some? && token.Some? && !TokenStops(token.value)
      && getLineItems(lti.ags.value.lineItemsUrl).Ok?
      && var items := getLineItems(lti.ags.value.lineItemsUrl).body;
      && |v.model.value.lineItems.value| == |items|
      && (forall i :: 0 <= i < |items| ==>
            && v.model.value.lineItems.value[i].item == items[i]
            && v.model.value.lineItems.value[i].header == Header(items[i]))
      && v.model.value.members.Some?
    ensures v.Render? && v.model.Some? && v.model.value.members.Some? ==>
      v.model.value.lineItems.Some?
    ensures v.Render? && v.model.Some? && v.model.value.members.Some? && v.model.value.members.value != [] ==>
      && var lti := read(idToken.value).value;
      && lti.nrps.Some?
      && getMembers(lti.nrps.value.contextMembershipUrl).Ok?
      && v.model.value.members.value == MemberMap(getMembers(lti.nrps.value.contextMembershipUrl).body)
    ensures keepModel ==> (v.Render? ==> v.model.Some?)
    ensures !keepModel ==> (v == Render(None) <==>
      && !IsMissing(idToken) && read(idToken.value).Some?
      && var lti := read(idToken.value).value;
      && lti.ags.Some? && token.Some? && !TokenStops(token.value)
      && getLineItems(lti.ags.value.lineItemsUrl).Thrown?)
    ensures !IsMissing(idToken) && read(idToken.value).Some? && read(idToken.value).value.ags.None? ==>
      && v.Render? && v.model.Some?
      && v.model.value.status == Some(NoAgsStatus)
      && v.model.value.lineItems.None? && v.model.value.members.None?
    ensures ReachesLineItems(idToken, read, token) ==>
      var got := getLineItems(read(idToken.value).value.ags.value.lineItemsUrl);
      got.NotSuccess? ==>
        && v.Render? && v.model.Some?
        && v.model.value.status == got.reason
        && v.model.value.lineItems.None? && v.model.value.members.None?
    ensures ReachesLineItems(idToken, read, token) ==>
      var lti := read(idToken.value).value;
      var got := getLineItems(lti.ags.value.lineItemsUrl);
      var members := MembersResponse(lti, getMembers);
      got.Ok? ==>
        && v.Render? && v.model.Some?
        && (!members.Ok? ==>
              && v.model.value.status == FailureStatus(members)
              && v.model.value.members == Some([])
              && v.model.value.lineItems == Some(WithHeaders(got.body)))
        && (members.Ok? ==>
              var f := FetchResults(WithHeaders(got.body), getResults);
              && v.model.value.members == Some(MemberMap(members.body))
              && v.model.value.lineItems == Some(f.items)
              && v.model.value.status == (if f.stop.Done? then None else f.stop.status))
  {
    if IsMissing(idToken) then Render(Some(EmptyModel.(status := Some(MissingIdTokenStatus))))
    else match read(idToken.value)
      case None => Crash
      case Some(lti) =>
        var m := EmptyModel.(idToken := idToken, ltiRequest := Some(lti));
        if lti.ags.None? then Render(Some(m.(status := Some(NoAgsStatus))))
        else
          var m := m.(lineItemUrl := lti.ags.value.lineItemUrl);
          match token
          case None => Crash
          case Some(t) =>
            if TokenStops(t) then Render(Some(m.(status := t.error)))
            else match getLineItems(lti.ags.value.lineItemsUrl)
              case NotSuccess(reason) => Render(Some(m.(status := reason)))
              case Thrown(message) => if keepModel then Render(Some(m.(status := Some(message)))) else Render(None)
              case Ok(items) =>
                var m := m.(lineItems := Some(WithHeaders(items)), members := Some([]));
                var members := MembersResponse(lti, getMembers);
                if !members.Ok? then Render(Some(m.(status := FailureStatus(members))))
                else
                  var m := m.(members := Some(MemberMap(members.body)));
                  var f := FetchResults(WithHeaders(items), getResults);
                  Render(Some(m.(lineItems := Some(f.items), status := if f.stop.Done? then None else f.stop.status)))
  }

  /** `InvokeAsync` as written. */
  function InvokeAsWritten(idToken: Option<string>, read: string -> Option<LtiClaims>, token: Option<TokenResult>,
                           getLineItems: Option<string> -> Response<seq<LineItem>>,
                           getMembers: Option<string> -> Response<seq<Member>>,
                           getResults: string -> Response<ResultContainer>): (v: View)
    ensures v == Render(None) <==>
      && !IsMissing(idToken) && read(idToken.value).Some?
      && var lti := read(idToken.value).value;
      && lti.ags.Some? && token.Some? && !TokenStops(token.value)
      && getLineItems(lti.ags.value.lineItemsUrl).Thrown?
  {
    Run(idToken, read, token, getLineItems, getMembers, getResults, false)
  }

  /** `InvokeAsync` with the catch around the line-items GET rendering the
      model it has just given a status, like every other exit. */
  function Invoke(idToken: Option<string>, read: string -> Option<LtiClaims>, token: Option<TokenResult>,
                  getLineItems: Option<string> -> Response<seq<LineItem>>,
                  getMembers: Option<string> -> Response<seq<Member>>,
                  getResults: string -> Response<ResultContainer>): (v: View)
    ensures v.Render? ==> v.model.Some?
    ensures v != InvokeAsWritten(idToken, read, token, getLineItems, getMembers, getResults) ==>
      && InvokeAsWritten(idToken, read, token, getLineItems, getMembers, getResults) == Render(None)
      && var lti := read(idToken.value).value;
      && v == Render(Some(EmptyModel.(idToken := idToken, ltiRequest := Some(lti),
                                       lineItemUrl := lti.ags.value.lineItemUrl,
                                       status := Some(getLineItems(lti.ags.value.lineItemsUrl).message))))
  {
    Run(idToken, read, token, getLineItems, getMembers, getResults, true)
  }

  /** A complete run: every GET succeeds, so the model carries every line
      item with its results, the member dictionary, and no status. */
  lemma CompleteRun(idToken: Option<string>, read: string -> Option<LtiClaims>, token: Option<TokenResult>,
                    getLineItems: Option<string> -> Response<seq<LineItem>>,
                    getMembers: Option<string> -> Response<seq<Member>>,
                    getResults: string -> Response<ResultContainer>)
    requires !IsMissing(idToken) && read(idToken.value).Some?
    requires read(idToken.value).value.ags.Some? && read(idToken.value).value.nrps.Some?
    requires token.Some? && !TokenStops(token.value)
    requires getLineItems(read(idToken.value).value.ags.value.lineItemsUrl).Ok?
    requires getMembers(read(idToken.value).value.nrps.value.contextMembershipUrl).Ok?
    requires var items := getLineItems(read(idToken.value).value.ags.value.lineItemsUrl).body;
      forall i :: 0 <= i < |items| ==> getResults(ResultsUrl(items[i].id)).Ok?
    ensures var v := Invoke(idToken, read, token, getLineItems, getMembers, getResults);
      var lti := read(idToken.value).value;
      var items := getLineItems(lti.ags.value.lineItemsUrl).body;
      && v.Render? && v.model.Some?
      && v.model.value.status.None?
      && v.model.value.lineItemUrl == lti.ags.value.lineItemUrl
      && v.model.value.members == Some(MemberMap(getMembers(lti.nrps.value.contextMembershipUrl).body))
      && v.model.value.lineItems.Some? && |v.model.value.lineItems.value| == |items|
      && forall i :: 0 <= i < |items| ==>
           v.model.value.lineItems.value[i] ==
             MyLineItem(Header(items[i]), items[i], Some(getResults(ResultsUrl(items[i].id)).body))
  {
  }

  /** A token error other than "Created" ends the component before any GET:
      the three GET functions are never consulted. */
  lemma TokenErrorStopsEarly(idToken: Option<string>, read: string -> Option<LtiClaims>, t: TokenResult,
                             l1: Option<string> -> Response<seq<LineItem>>, l2: Option<string> -> Response<seq<LineItem>>,
                             m1: Option<string> -> Response<seq<Member>>, m2: Option<string> -> Response<seq<Member>>,
                             r1: string -> Response<ResultContainer>, r2: string -> Response<ResultContainer>)
    requires !IsMissing(idToken) && read(idToken.value).Some? && read(idToken.value).value.ags.Some?
    requires TokenStops(t)
    ensures Invoke(idToken, read, Some(t), l1, m1, r1) == Invoke(idToken, read, Some(t), l2, m2, r2)
    ensures Invoke(idToken, read, Some(t), l1, m1, r1).model.value.status == t.error
  {
  }

  /** The reference platform's "Created" error counts as success: the
      component runs exactly as it does on a token without an error. */
  lemma CreatedIsTolerated(idToken: Option<string>, read: string -> Option<LtiClaims>,
                           getLineItems: Option<string> -> Response<seq<LineItem>>,
                           getMembers: Option<string> -> Response<seq<Member>>,
                           getResults: string -> Response<ResultContainer>)
    ensures Invoke(idToken, read, Some(TokenResult(true, Some(Created))), getLineItems, getMembers, getResults)
         == Invoke(idToken, read, Some(TokenResult(false, None)), getLineItems, getMembers, getResults)
  {
  }

  /** A missing Names and Role Provisioning claim is dereferenced inside the
      members' try: the page shows the line items, an empty member list and
      the null-reference message. */
  lemma MissingNrpsIsCaught(idToken: Option<string>, read: string -> Option<LtiClaims>, token: Option<TokenResult>,
                            getLineItems: Option<string> -> Response<seq<LineItem>>,
                            getMembers: Option<string> -> Response<seq<Member>>,
                            getResults: string -> Response<ResultContainer>)
    requires !IsMissing(idToken) && read(idToken.value).Some?
    requires read(idToken.value).value.ags.Some? && read(idToken.value).value.nrps.None?
    requires token.Some? && !TokenStops(token.value)
    requires getLineItems(read(idToken.value).value.ags.value.lineItemsUrl).Ok?
    ensures var v := Invoke(idToken, read, token, getLineItems, getMembers, getResults);
      && v.Render? && v.model.Some?
      && v.model.value.members == Some([])
      && v.model.value.status == Some(NullReferenceMessage)
  {
  }

  /** The catch around the line-items GET renders `View()`: the status it
      has just set never reaches the view. A launch whose line-items GET
      throws shows it. */
  lemma LineItemsFailureLosesStatus()
    ensures var read := (s: string) => Some(LtiClaims(Some(Ags(None, Some("https://lms.example/lineitems"))), None));
      var getLineItems := (u: Option<string>) => Thrown("No such host is known.");
      var getMembers := (u: Option<string>) => NotSuccess(None);
      var getResults := (u: string) => NotSuccess(None);
      var token := Some(TokenResult(false, None));
      && InvokeAsWritten(Some("t"), read, token, getLineItems, getMembers, getResults) == Render(None)
      && Invoke(Some("t"), read, token, getLineItems, getMembers, getResults).model.value.status
           == Some("No such host is known.")
  {
    var read := (s: string) => Some(LtiClaims(Some(Ags(None, Some("https://lms.example/lineitems"))), None));
    assert !IsMissing(Some("t")) by { assert !IsWhiteSpace("t"[0]); }
    assert read("t").Some?;
  }
}

=== FILE: oidc_login.dfy ===
/** Third-party-initiated login (section 4 of OpenID Connect Core 1.0): the
    platform sends `iss`, `login_hint`, `lti_message_hint` and
    `target_link_uri`; the tool checks them, stores a fresh nonce/state pair
    and redirects the browser to the platform's authorization endpoint with an
    implicit-flow authentication request (section 3.2.2.1) whose response is
    posted back (OAuth 2.0 Form Post Response Mode). */
module OidcLogin {
  import opened Common
  import opened Records
  import StateStore

  /** The four bound request parameters; `None` is an absent parameter. */
  datatype LoginRequest = LoginRequest(
    iss: Option<string>,
    loginHint: Option<string>,
    ltiMessageHint: Option<string>,
    targetLinkUri: Option<string>)

  /** What the tool needs of a parsed absolute URI: its host. */
  datatype AbsoluteUri = AbsoluteUri(host: string)

  /** Why a login is refused; each is logged and answered with 400. */
  datatype Rejection =
    | MissingIssuer
    | MissingLoginHint
    | MissingLtiMessageHint
    | MissingTargetLinkUri
    | UnknownIssuer
    | TargetLinkUriNotAbsolute
    | TargetLinkUriForeignHost

  /** The authorization endpoint and the query parameters added to it. */
  datatype AuthorizeUrl = AuthorizeUrl(endpoint: string, request: AuthenticationRequest)

  datatype LoginResult = BadRequest(why: Rejection) | Redirect(url: AuthorizeUrl)

  /** The first gate that refuses the request, if any. `tryParse` stands for
      `Uri.TryCreate(_, UriKind.Absolute, _)`. */
  function FirstRejection(
    req: LoginRequest,
    platforms: Table<Platform>,
    requestHost: string,
    tryParse: string -> Option<AbsoluteUri>): Option<Rejection>
  {
    if IsNullOrWhiteSpace(req.iss) then Some(MissingIssuer)
    else if IsNullOrWhiteSpace(req.loginHint) then Some(MissingLoginHint)
    else if IsNullOrWhiteSpace(req.ltiMessageHint) then Some(MissingLtiMessageHint)
    else if IsNullOrWhiteSpace(req.targetLinkUri) then Some(MissingTargetLinkUri)
    else if FindByIssuer(platforms, req.iss.value).None? then Some(UnknownIssuer)
    else if tryParse(req.targetLinkUri.value).None? then Some(TargetLinkUriNotAbsolute)
    else if tryParse(req.targetLinkUri.value).value.host != requestHost then Some(TargetLinkUriForeignHost)
    else None
  }

  /** The authentication request `CreateAuthorizeUrl` encodes, one field
      per query parameter. */
  datatype AuthenticationRequest = AuthenticationRequest(
    clientId: string,
    responseType: string,
    scope: string,
    redirectUri: string,
    state: string,
    nonce: string,
    loginHint: string,
    prompt: string,
    responseMode: string,
    ltiMessageHint: string)
  {
    /** The query string parameters, in the order the library writes them. */
    function Query(): seq<(string, string)> {
      [ ("client_id", clientId),
        ("response_type", responseType),
        ("scope", scope),
        ("redirect_uri", redirectUri),
        ("state", state),
        ("nonce", nonce),
        ("login_hint", loginHint),
        ("prompt", prompt),
        ("response_mode", responseMode),
        ("lti_message_hint", ltiMessageHint) ]
    }
  }

  /** The ten parameter names of the authentication request. */
  const AuthorizeParameters: set<string> :=
    {"client_id", "response_type", "scope", "redirect_uri", "state", "nonce",
     "login_hint", "prompt", "response_mode", "lti_message_hint"}

  // The query's facts are split over six lemmas: each looks up a few
  // entries of the literal list, which keeps every proof small.

  /** The query's parameter names are exactly those ten. */
  lemma QueryNames(a: AuthenticationRequest)
    ensures Keys(a.Query()) == AuthorizeParameters
  {
    var q := a.Query();
    assert q[0].0 == "client_id" && q[1].0 == "response_type" && q[2].0 == "scope";
    assert q[3].0 == "redirect_uri" && q[4].0 == "state" && q[5].0 == "nonce";
    assert q[6].0 == "login_hint" && q[7].0 == "prompt" && q[8].0 == "response_mode";
    assert q[9].0 == "lti_message_hint";
  }

  /** The query names the tool and where the response goes. */
  lemma QueryAddressesTool(a: AuthenticationRequest)
    ensures Lookup(a.Query(), "client_id") == Some(a.clientId)
    ensures Lookup(a.Query(), "redirect_uri") == Some(a.redirectUri)
  {
    var q := a.Query();
    LookupFirst(q, 0);
    assert forall j :: 0 <= j < 3 ==> q[j].0 != q[3].0;
    LookupFirst(q, 3);
  }

  /** The query asks for an id_token delivered by form post. */
  lemma QueryResponse(a: AuthenticationRequest)
    ensures Lookup(a.Query(), "response_type") == Some(a.responseType)
    ensures Lookup(a.Query(), "response_mode") == Some(a.responseMode)
  {
    var q := a.Query();
    assert q[0].0 != q[1].0;
    LookupFirst(q, 1);
    assert q[1].0[9] != q[8].0[9];
    assert forall j :: 0 <= j < 8 ==> q[j].0 != q[8].0;
    LookupFirst(q, 8);
  }

  /** The query's scope and prompt. */
  lemma QueryScopeAndPrompt(a: AuthenticationRequest)
    ensures Lookup(a.Query(), "scope") == Some(a.scope)
    ensures Lookup(a.Query(), "prompt") == Some(a.prompt)
  {
    var q := a.Query();
    assert forall j :: 0 <= j < 2 ==> q[j].0 != q[2].0;
    LookupFirst(q, 2);
    assert forall j :: 0 <= j < 7 ==> q[j].0 != q[7].0;
    LookupFirst(q, 7);
  }

  /** The query carries the correlation values. */
  lemma QueryCarriesCorrelation(a: AuthenticationRequest)
    ensures Lookup(a.Query(), "state") == Some(a.state)
    ensures Lookup(a.Query(), "nonce") == Some(a.nonce)
  {
    var q := a.Query();
    assert forall j :: 0 <= j < 4 ==> q[j].0 != q[4].0;
    LookupFirst(q, 4);
    assert forall j :: 0 <= j < 5 ==> q[j].0 != q[5].0;
    LookupFirst(q, 5);
  }

  /** The query carries the platform's hints back to it. */
  lemma QueryCarriesHints(a: AuthenticationRequest)
    ensures Lookup(a.Query(), "login_hint") == Some(a.loginHint)
    ensures Lookup(a.Query(), "lti_message_hint") == Some(a.ltiMessageHint)
  {
    var q := a.Query();
    assert forall j :: 0 <= j < 6 ==> q[j].0 != q[6].0;
    LookupFirst(q, 6);
    assert forall j :: 0 <= j < 9 ==> q[j].0 != q[9].0;
    LookupFirst(q, 9);
  }

  /** `OnGetOrPost`. `nonce` and `state` are the two values
      `CryptoRandom.CreateUniqueId` returns; a fresh nonce is not yet a key of
      the state table. */
  function Login(
    req: LoginRequest,
    platforms: Table<Platform>,
    requestHost: string,
    tryParse: string -> Option<AbsoluteUri>,
    nonce: string,
    state: string,
    store: StateStore.Store): (r: (LoginResult, StateStore.Store))
    requires nonce !in store
    ensures r.0.BadRequest? ==> r.1 == store
    ensures r.0.Redirect? ==>
      && r.1.Keys == store.Keys + {nonce}
      && r.1[nonce] == state
      && StateStore.SameElsewhere(store, r.1, nonce)
    ensures r.0.Redirect? ==>
      && r.0.url.request.nonce == nonce
      && r.0.url.request.state == r.1[nonce]
  {
    match FirstRejection(req, platforms, requestHost, tryParse)
    case Some(why) => (BadRequest(why), store)
    case None =>
      var platform := FindByIssuer(platforms, req.iss.value).value;
      var store' := StateStore.AddState(store, nonce, state);
      var request := AuthenticationRequest(
        clientId := platform.clientId,
        responseType := "id_token",
        scope := "openid",
        redirectUri := req.targetLinkUri.value,
        state := state,
        nonce := nonce,
        loginHint := req.loginHint.value,
        prompt := "none",
        responseMode := "form_post",
        ltiMessageHint := req.ltiMessageHint.value);
      (Redirect(AuthorizeUrl(platform.authorizeUrl, request)), store')
  }

  /** The gates run in order: each rejection is reported only when every
      earlier gate passed, and a blank parameter is refused before the
      platform table is consulted. */
  lemma LoginGateOrder(
    req: LoginRequest, platforms: Table<Platform>, requestHost: string,
    tryParse: string -> Option<AbsoluteUri>, nonce: string, state: string,
    store: StateStore.Store)
    requires nonce !in store
    ensures var r := Login(req, platforms, requestHost, tryParse, nonce, state, store).0;
      && (IsNullOrWhiteSpace(req.iss) ==> r == BadRequest(MissingIssuer))
      && ((!IsNullOrWhiteSpace(req.iss) && IsNullOrWhiteSpace(req.loginHint))
            ==> r == BadRequest(MissingLoginHint))
      && ((!IsNullOrWhiteSpace(req.iss) && !IsNullOrWhiteSpace(req.loginHint)
           && IsNullOrWhiteSpace(req.ltiMessageHint))
            ==> r == BadRequest(MissingLtiMessageHint))
      && ((!IsNullOrWhiteSpace(req.iss) && !IsNullOrWhiteSpace(req.loginHint)
           && !IsNullOrWhiteSpace(req.ltiMessageHint) && IsNullOrWhiteSpace(req.targetLinkUri))
            ==> r == BadRequest(MissingTargetLinkUri))
    ensures forall ps: Table<Platform> ::
      (|| IsNullOrWhiteSpace(req.iss) || IsNullOrWhiteSpace(req.loginHint)
       || IsNullOrWhiteSpace(req.ltiMessageHint) || IsNullOrWhiteSpace(req.targetLinkUri))
      ==> Login(req, ps, requestHost, tryParse, nonce, state, store)
          == Login(req, platforms, requestHost, tryParse, nonce, state, store)
  {
  }

  /** All four parameters present: an unregistered issuer is refused, then a
      target that is not an absolute URI, then one on another host. */
  lemma LoginIssuerAndTargetChecks(
    req: LoginRequest, platforms: Table<Platform>, requestHost: string,
    tryParse: string -> Option<AbsoluteUri>, nonce: string, state: string,
    store: StateStore.Store)
    requires nonce !in store
    requires !IsNullOrWhiteSpace(req.iss) && !IsNullOrWhiteSpace(req.loginHint)
    requires !IsNullOrWhiteSpace(req.ltiMessageHint) && !IsNullOrWhiteSpace(req.targetLinkUri)
    ensures var r := Login(req, platforms, requestHost, tryParse, nonce, state, store).0;
      var known := IdsWithIssuer(platforms, req.iss.value) != {};
      var parsed := tryParse(req.targetLinkUri.value);
      && (!known ==> r == BadRequest(UnknownIssuer))
      && (known && parsed.None? ==> r == BadRequest(TargetLinkUriNotAbsolute))
      && ((known && parsed.Some? && parsed.value.host != requestHost)
            ==> r == BadRequest(TargetLinkUriForeignHost))
      && (r.Redirect? <==> known && parsed.Some? && parsed.value.host == requestHost)
  {
  }

  /** A successful login asks the registered platform for an id_token posted
      back to the target link, with no user interaction, forwarding the
      hints unchanged. */
  lemma LoginRedirectContents(
    req: LoginRequest, platforms: Table<Platform>, requestHost: string,
    tryParse: string -> Option<AbsoluteUri>, nonce: string, state: string,
    store: StateStore.Store)
    requires nonce !in store
    ensures var r := Login(req, platforms, requestHost, tryParse, nonce, state, store).0;
      r.Redirect? ==>
        var platform := FindByIssuer(platforms, req.iss.value).value;
        var a := r.url.request;
        && platform.issuer == req.iss.value
        && r.url.endpoint == platform.authorizeUrl
        && a.clientId == platform.clientId
        && a.responseType == "id_token"
        && a.responseMode == "form_post"
        && a.scope == "openid"
        && a.prompt == "none"
        && Some(a.redirectUri) == req.targetLinkUri
        && Some(a.loginHint) == req.loginHint
        && Some(a.ltiMessageHint) == req.ltiMessageHint
        && a.state == state
        && tryParse(a.redirectUri).Some?
        && tryParse(a.redirectUri).value.host == requestHost
  {
  }
}

=== FILE: ordering.dfy ===
/** The order `OrderBy` uses on strings, taken as the ordinal (character
    code) lexicographic order. */
module Ordering {

  /** `a` sorts before or equal to `b`. */
  predicate LexLe(a: string, b: string)
    decreases |a|
  {
    |a| == 0 || (|b| > 0 && (a[0] < b[0] || (a[0] == b[0] && LexLe(a[1..], b[1..]))))
  }

  lemma {:induction false} LexLeReflexive(a: string)
    ensures LexLe(a, a)
    decreases |a|
  {
    if |a| > 0 {
      LexLeReflexive(a[1..]);
    }
  }

  lemma {:induction false} LexLeTotal(a: string, b: string)
    ensures LexLe(a, b) || LexLe(b, a)
    decreases |a|
  {
    if |a| > 0 && |b| > 0 && a[0] == b[0] {
      LexLeTotal(a[1..], b[1..]);
    }
  }

  lemma {:induction false} LexLeTransitive(a: string, b: string, c: string)
    requires LexLe(a, b) && LexLe(b, c)
    ensures LexLe(a, c)
    decreases |a|
  {
    if |a| > 0 && a[0] == b[0] && b[0] == c[0] {
      LexLeTransitive(a[1..], b[1..], c[1..]);
    }
  }

  lemma {:induction false} LexLeAntisymmetric(a: string, b: string)
    requires LexLe(a, b) && LexLe(b, a)
    ensures a == b
    decreases |a|
  {
    if |a| > 0 {
      LexLeAntisymmetric(a[1..], b[1..]);
      assert a == [a[0]] + a[1..];
      assert b == [b[0]] + b[1..];
    }
  }
}

=== FILE: platforms.dfy ===
/** The Platforms pages: register, edit, show, delete and list the
    platforms a user has registered. Each handler is a function from the
    request and the `Platforms` table to an outcome and the new table.

    `PlatformModel.DiscoverEndpoints`, `UpdateEntity` and `FillEntity` are
    not part of this model's sources; they are modelled as the names say:
    discovery sets the endpoint URLs from what the `discover` parameter
    returns, and the two entity methods copy every form field onto the
    entity's field of the same name, leaving its key and owner alone. */
module Platforms {
  import opened Common
  import opened Records
  import opened Registry
  import Ordering
  import Sorting

  /** The model error a second registration of an issuer gets. */
  const IssuerTakenError := "This Issuer is already registered."

  /** `PlatformModel`, the bound form: the platform's fields without the owner. */
  datatype PlatformForm = PlatformForm(
    id: int,
    name: string,
    issuer: string,
    authorizeUrl: string,
    accessTokenUrl: Option<string>,
    jwkSetUrl: string,
    clientId: string,
    keyId: string,
    privateKey: string,
    publicKey: Option<string>,
    clientSecret: string)

  /** The endpoints discovery finds for a form. */
  datatype Endpoints = Endpoints(authorizeUrl: string, accessTokenUrl: Option<string>, jwkSetUrl: string)

  /** The six fields the list and details pages show. */
  datatype PlatformSummary = PlatformSummary(
    accessTokenUrl: Option<string>, clientId: string, name: string, id: int, issuer: string, jwkSetUrl: string)

  /** The details page: the summary and the tool's own issuer URI. */
  datatype DetailsView = DetailsView(platform: PlatformSummary, toolIssuer: string)

  function OwnerOf(p: Platform): Option<string> {
    p.owner
  }

  /** The form showing a stored platform. */
  function FormOf(p: Platform): PlatformForm {
    PlatformForm(p.id, p.name, p.issuer, p.authorizeUrl, p.accessTokenUrl, p.jwkSetUrl,
                 p.clientId, p.keyId, p.privateKey, p.publicKey, p.clientSecret)
  }

  /** `FillEntity`/`UpdateEntity`: the form's fields written onto `entity`. */
  function Fill(form: PlatformForm, entity: Platform): (p: Platform)
    ensures p.id == entity.id && p.owner == entity.owner
    ensures FormOf(p) == form.(id := entity.id)
  {
    Platform(entity.id, form.name, form.issuer, form.authorizeUrl, form.accessTokenUrl, form.jwkSetUrl,
             form.clientId, form.keyId, form.privateKey, form.publicKey, form.clientSecret, entity.owner)
  }

  /** A platform saved from a form is listed with the form's fields and
      the row's own id. */
  lemma SummaryOfSaved(form: PlatformForm, entity: Platform)
    ensures var s := Summary(Fill(form, entity));
      && s.id == entity.id && s.name == form.name && s.issuer == form.issuer
      && s.clientId == form.clientId && s.accessTokenUrl == form.accessTokenUrl && s.jwkSetUrl == form.jwkSetUrl
  {
  }

  /** Writing back the form of a stored platform changes nothing. */
  lemma FillFormOf(p: Platform)
    ensures Fill(FormOf(p), p) == p
  {
  }

  function Summary(p: Platform): (s: PlatformSummary)
    ensures s.id == p.id && s.name == p.name && s.issuer == p.issuer
    ensures s.clientId == p.clientId && s.accessTokenUrl == p.accessTokenUrl && s.jwkSetUrl == p.jwkSetUrl
  {
    PlatformSummary(p.accessTokenUrl, p.clientId, p.name, p.id, p.issuer, p.jwkSetUrl)
  }

  /** `DiscoverEndpoints`: the form with its endpoints replaced. */
  function Discovered(form: PlatformForm, discover: PlatformForm -> Endpoints): (f: PlatformForm)
    ensures f.(authorizeUrl := form.authorizeUrl, accessTokenUrl := form.accessTokenUrl, jwkSetUrl := form.jwkSetUrl) == form
    ensures f.id == form.id && f.issuer == form.issuer
  {
    var e := discover(form);
    form.(authorizeUrl := e.authorizeUrl, accessTokenUrl := e.accessTokenUrl, jwkSetUrl := e.jwkSetUrl)
  }

  /** Some registered platform already has this issuer. */
  predicate IssuerTaken(platforms: Table<Platform>, issuer: string) {
    exists id :: id in platforms && platforms[id].issuer == issuer
  }

  /** `CreateModel.OnPostAsync`. `valid` is the form's own validation;
      `user` the signed-in user, if found. The page shows the form again
      with its model error, if any; on success the new row gets the next
      key. */
  function CreatePost(form: PlatformForm, valid: bool, platforms: Table<Platform>, user: Option<User>,
                      discover: PlatformForm -> Endpoints): (h: Handled<Platform, Option<string>>)
    ensures IssuerTaken(platforms, form.issuer) ==> h == Handled(Page(Some(IssuerTakenError)), platforms)
    ensures !IssuerTaken(platforms, form.issuer) && !valid ==> h == Handled(Page(None), platforms)
    ensures h.outcome == RedirectToIndex <==> valid && !IssuerTaken(platforms, form.issuer)
    ensures h.outcome == RedirectToIndex ==>
      && var id := FreshId(platforms);
      && h.table.Keys == platforms.Keys + {id}
      && (forall k :: k in platforms ==> h.table[k] == platforms[k])
      && h.table[id].id == id
      && h.table[id].owner == (if user.Some? then Some(user.value.id) else None)
      && FormOf(h.table[id]) == Discovered(form, discover).(id := id)
  {
    if IssuerTaken(platforms, form.issuer) then Handled(Page(Some(IssuerTakenError)), platforms)
    else if !valid then Handled(Page(None), platforms)
    else
      var id := FreshId(platforms);
      var blank := Platform(id, "", "", "", None, "", "", "", "", None, "",
                            if user.Some? then Some(user.value.id) else None);
      var p := Fill(Discovered(form, discover), blank);
      var t := platforms[id := p];
      assert t.Keys == platforms.Keys + {id};
      assert forall k :: k in platforms ==> t[k] == platforms[k];
      Handled(RedirectToIndex, t)
  }

  /** Registration keeps issuers unique: the issuer check runs on the
      issuer that is stored, since discovery only touches endpoints. */
  lemma CreateKeepsIssuersUnique(form: PlatformForm, valid: bool, platforms: Table<Platform>, user: Option<User>,
                                 discover: PlatformForm -> Endpoints)
    requires UniqueIssuers(platforms)
    ensures UniqueIssuers(CreatePost(form, valid, platforms, user, discover).table)
  {
    var h := CreatePost(form, valid, platforms, user, discover);
    if h.outcome == RedirectToIndex {
      var id := FreshId(platforms);
      assert h.table[id].issuer == form.issuer;
      forall a, b | a in h.table && b in h.table && a != b
        ensures h.table[a].issuer != h.table[b].issuer
      {
        if a != id && b != id {
          assert h.table[a] == platforms[a] && h.table[b] == platforms[b];
        } else if a == id {
          assert h.table[b] == platforms[b];
        } else {
          assert h.table[a] == platforms[a];
        }
      }
    }
  }

  /** What an `RsaHelper` key derivation gives for a stored or posted
      private key: the public key, which may be null, or an exception (a
      null private key, as a registration with only a shared secret has, or
      text that is not an RSA private key in PEM form). */
  datatype Derivation = Derived(publicKey: Option<string>) | DerivationFails

  /** `EditModel.OnGetAsync`: the gate, then `new PlatformModel(platform)`,
      whose public key is derived from the stored private key (`derive`
      stands for `RsaHelper.PublicKeyFromPrivateKey`). A derivation that
      throws is not caught. */
  function EditGet(id: Option<int>, platforms: Table<Platform>, user: Option<User>,
                   derive: string -> Derivation): (r: Outcome<PlatformForm>)
    ensures r == NotFound <==>
      id.None? || id.value !in platforms || (user.Some? && platforms[id.value].owner != Some(user.value.id))
    ensures r == Crash <==>
      && id.Some? && id.value in platforms
      && (|| user.None?
          || (platforms[id.value].owner == Some(user.value.id)
              && derive(platforms[id.value].privateKey).DerivationFails?))
    ensures r.Page? ==>
      && platforms[id.value].owner == Some(user.value.id)
      && derive(platforms[id.value].privateKey).Derived?
      && r.view == FormOf(platforms[id.value]).(publicKey := derive(platforms[id.value].privateKey).publicKey)
  {
    match Gate(id, platforms, user, OwnerOf)
    case Page(p) =>
      (match derive(p.privateKey)
       case Derived(key) => Page(FormOf(p).(publicKey := key))
       case DerivationFails => Crash)
    case NotFound => NotFound
    case Crash => Crash
  }

  /** The form `EditModel.OnPostAsync` saves: discovered endpoints, and a
      public key derived from the private key when the form has none
      (`derive` stands for `RsaHelper.GetPublicKeyStringFromPrivateKey`);
      `None` when that derivation throws. */
  function EditedForm(form: PlatformForm, discover: PlatformForm -> Endpoints,
                      derive: string -> Derivation): (f: Option<PlatformForm>)
    ensures f.None? <==> IsMissing(form.publicKey) && derive(form.privateKey).DerivationFails?
    ensures f.Some? ==> f.value.id == form.id
    ensures IsPresent(form.publicKey) ==> f == Some(Discovered(form, discover))
    ensures IsMissing(form.publicKey) && derive(form.privateKey).Derived? ==>
      f == Some(Discovered(form, discover).(publicKey := derive(form.privateKey).publicKey))
  {
    var f := Discovered(form, discover);
    assert f.publicKey == form.publicKey && f.privateKey == form.privateKey;
    if IsPresent(f.publicKey) then Some(f)
    else match derive(f.privateKey)
      case Derived(key) => Some(f.(publicKey := key))
      case DerivationFails => None
  }

  /** `EditModel.OnPostAsync`. There is no owner check: the row whose key
      the form posts is overwritten, whoever registered it. A derivation
      that throws, or a posted key with no row, which makes `FillEntity`
      dereference null, ends in an exception. */
  function EditPost(form: PlatformForm, valid: bool, platforms: Table<Platform>,
                    discover: PlatformForm -> Endpoints, derive: string -> Derivation): (h: Handled<Platform, PlatformForm>)
    ensures !valid ==> h == Handled(Page(form), platforms)
    ensures valid && (form.id !in platforms || EditedForm(form, discover, derive).None?) ==>
      h == Handled(Crash, platforms)
    ensures valid && form.id in platforms && EditedForm(form, discover, derive).Some? ==>
      && h.outcome == RedirectToIndex
      && h.table.Keys == platforms.Keys
      && (forall k :: k in platforms && k != form.id ==> h.table[k] == platforms[k])
      && h.table[form.id].owner == platforms[form.id].owner
      && FormOf(h.table[form.id]) == EditedForm(form, discover, derive).value.(id := platforms[form.id].id)
  {
    if !valid then Handled(Page(form), platforms)
    else match EditedForm(form, discover, derive)
      case None => Handled(Crash, platforms)
      case Some(f) =>
        if f.id !in platforms then Handled(Crash, platforms)
        else
          var p := Fill(f, platforms[f.id]);
          Handled(RedirectToIndex, platforms[f.id := p])
  }

  /** What a valid edit does: it saves exactly when the row exists and a
      public key was posted or could be derived, and leaves the table alone
      otherwise. A saved row holds the posted name, issuer, client id, key
      id, private key and secret; the endpoints discovery found; the posted
      public key when there is one, and otherwise the key derived from the
      posted private key. */
  lemma EditStoresPosted(form: PlatformForm, platforms: Table<Platform>,
                         discover: PlatformForm -> Endpoints, derive: string -> Derivation)
    ensures var h := EditPost(form, true, platforms, discover, derive);
      && (h.outcome == RedirectToIndex <==>
            form.id in platforms && (IsPresent(form.publicKey) || derive(form.privateKey).Derived?))
      && (h.outcome != RedirectToIndex ==> h == Handled(Crash, platforms))
    ensures var h := EditPost(form, true, platforms, discover, derive);
      h.outcome == RedirectToIndex ==>
        var p := h.table[form.id];
        && p.name == form.name && p.issuer == form.issuer && p.clientId == form.clientId
        && p.keyId == form.keyId && p.privateKey == form.privateKey && p.clientSecret == form.clientSecret
        && p.authorizeUrl == discover(form).authorizeUrl
        && p.accessTokenUrl == discover(form).accessTokenUrl
        && p.jwkSetUrl == discover(form).jwkSetUrl
        && (IsPresent(form.publicKey) ==> p.publicKey == form.publicKey)
        && (IsMissing(form.publicKey) ==> p.publicKey == derive(form.privateKey).publicKey)
  {
    var f := Discovered(form, discover);
    assert f.publicKey == form.publicKey && f.privateKey == form.privateKey;
  }

  /** The edit page has no issuer check, so an edit can give one platform
      the issuer of another: registration keeps issuers unique, editing does
      not. */
  lemma EditCanDuplicateIssuer(platforms: Table<Platform>, a: int, b: int,
                               discover: PlatformForm -> Endpoints, derive: string -> Derivation)
    requires a in platforms && b in platforms && a != b
    requires IsPresent(platforms[b].publicKey)
    ensures var form := FormOf(platforms[b]).(id := b, issuer := platforms[a].issuer);
      var h := EditPost(form, true, platforms, discover, derive);
      && h.outcome == RedirectToIndex
      && h.table[a].issuer == h.table[b].issuer
      && !UniqueIssuers(h.table)
  {
    var form := FormOf(platforms[b]).(id := b, issuer := platforms[a].issuer);
    EditStoresPosted(form, platforms, discover, derive);
  }

  /** `DetailsModel.OnGetAsync`: the gate, then the summary and the tool
      issuer (`HttpContext.GetIdentityServerIssuerUri()`). Read only. */
  function DetailsGet(id: Option<int>, platforms: Table<Platform>, user: Option<User>,
                      toolIssuer: string): (r: Outcome<DetailsView>)
    ensures r == NotFound <==>
      id.None? || id.value !in platforms || (user.Some? && platforms[id.value].owner != Some(user.value.id))
    ensures r == Crash <==> id.Some? && id.value in platforms && user.None?
    ensures r.Page? ==>
      && platforms[id.value].owner == Some(user.value.id)
      && r.view == DetailsView(Summary(platforms[id.value]), toolIssuer)
  {
    match Gate(id, platforms, user, OwnerOf)
    case Page(p) => Page(DetailsView(Summary(p), toolIssuer))
    case NotFound => NotFound
    case Crash => Crash
  }

  /** `DeleteModel.OnGetAsync`: no id or no user is 404; so is a key that
      is not among the user's own platforms. */
  function DeleteGet(id: Option<int>, platforms: Table<Platform>, user: Option<User>): (r: Outcome<Platform>)
    ensures r.Page? <==>
      id.Some? && user.Some? && id.value in platforms && platforms[id.value].owner == Some(user.value.id)
    ensures r.Page? ==> r.view == platforms[id.value]
    ensures !r.Page? ==> r == NotFound
  {
    if id.None? || user.None? then NotFound
    else if id.value in OwnedIds(platforms, OwnerOf, user.value.id) then Page(platforms[id.value])
    else NotFound
  }

  /** `DeleteModel.OnPostAsync`: no owner check. */
  function DeletePlatform(id: Option<int>, platforms: Table<Platform>): (h: Handled<Platform, ()>)
    ensures id.None? ==> h == Handled(NotFound, platforms)
    ensures id.Some? ==> h.outcome == RedirectToIndex && h.table == platforms - {id.value}
  {
    var h := DeletePost(id, platforms);
    assert id.Some? ==> h.table == platforms - {id.value};
    h
  }

  /** Platforms ordered by name, ordinally. */
  predicate NameLe(a: Platform, b: Platform) {
    Ordering.LexLe(a.name, b.name)
  }

  lemma NameLeTotalPreorder()
    ensures Sorting.TotalPreorder(NameLe)
  {
    forall a: Platform, b: Platform ensures NameLe(a, b) || NameLe(b, a) {
      Ordering.LexLeTotal(a.name, b.name);
    }
    forall a: Platform, b: Platform, c: Platform | NameLe(a, b) && NameLe(b, c)
      ensures NameLe(a, c)
    {
      Ordering.LexLeTransitive(a.name, b.name, c.name);
    }
  }

  /** `IndexModel.OnGetAsync`: the user's platforms ordered by name, as
      summaries. A missing user is dereferenced and throws. */
  function IndexGet(platforms: Table<Platform>, user: Option<User>): (r: Outcome<seq<PlatformSummary>>)
    ensures r.Crash? <==> user.None?
    ensures r.Page? ==> |r.view| == |OwnedIds(platforms, OwnerOf, user.value.id)|
    ensures r.Page? ==> forall i :: 0 <= i < |r.view| ==>
      exists id :: id in platforms && platforms[id].owner == Some(user.value.id) && Summary(platforms[id]) == r.view[i]
    ensures r.Page? ==> forall id :: id in platforms && platforms[id].owner == Some(user.value.id) ==>
      Summary(platforms[id]) in r.view
    ensures r.Page? ==> forall i, j :: 0 <= i < j < |r.view| ==> Ordering.LexLe(r.view[i].name, r.view[j].name)
    ensures r.NotFound? == false && r.RedirectToIndex? == false
  {
    if user.None? then Crash
    else
      var owned := ListOwned(platforms, OwnerOf, user.value.id);
      NameLeTotalPreorder();
      var sorted := Sorting.SortBy(owned, NameLe);
      var view := seq(|sorted|, i requires 0 <= i < |sorted| => Summary(sorted[i]));
      IndexListing(platforms, user.value.id, owned, sorted, view);
      Page(view)
  }

  lemma IndexListing(platforms: Table<Platform>, userId: string, owned: seq<Platform>,
                     sorted: seq<Platform>, view: seq<PlatformSummary>)
    requires owned == ListOwned(platforms, OwnerOf, userId)
    requires multiset(sorted) == multiset(owned) && Sorting.Sorted(sorted, NameLe)
    requires |view| == |sorted| && forall i :: 0 <= i < |sorted| ==> view[i] == Summary(sorted[i])
    ensures |view| == |OwnedIds(platforms, OwnerOf, userId)|
    ensures forall i :: 0 <= i < |view| ==>
      exists id :: id in platforms && platforms[id].owner == Some(userId) && Summary(platforms[id]) == view[i]
    ensures forall id :: id in platforms && platforms[id].owner == Some(userId) ==> Summary(platforms[id]) in view
    ensures forall i, j :: 0 <= i < j < |view| ==> Ordering.LexLe(view[i].name, view[j].name)
  {
    assert |sorted| == |owned| by {
      assert |multiset(sorted)| == |multiset(owned)|;
    }
    forall i | 0 <= i < |view|
      ensures exists id :: id in platforms && platforms[id].owner == Some(userId) && Summary(platforms[id]) == view[i]
    {
      ListedIsOwned(platforms, userId, owned, sorted, i);
    }
    forall id | id in platforms && platforms[id].owner == Some(userId)
      ensures Summary(platforms[id]) in view
    {
      OwnedIsListed(platforms, userId, owned, sorted, id);
      var k :| 0 <= k < |sorted| && sorted[k] == platforms[id];
      assert view[k] == Summary(platforms[id]);
    }
  }

  lemma ListedIsOwned(platforms: Table<Platform>, userId: string, owned: seq<Platform>, sorted: seq<Platform>, i: int)
    requires owned == ListOwned(platforms, OwnerOf, userId)
    requires multiset(sorted) == multiset(owned) && 0 <= i < |sorted|
    ensures exists id :: id in platforms && platforms[id].owner == Some(userId) && platforms[id] == sorted[i]
  {
    assert sorted[i] in multiset(sorted);
    assert sorted[i] in owned;
    var k :| 0 <= k < |owned| && owned[k] == sorted[i];
    var id :| id in platforms && platforms[id] == owned[k];
    assert OwnerOf(owned[k]) == Some(userId);
  }

  lemma OwnedIsListed(platforms: Table<Platform>, userId: string, owned: seq<Platform>, sorted: seq<Platform>, id: int)
    requires owned == ListOwned(platforms, OwnerOf, userId)
    requires multiset(sorted) == multiset(owned)
    requires id in platforms && platforms[id].owner == Some(userId)
    ensures platforms[id] in sorted
  {
    assert OwnerOf(platforms[id]) == Some(userId);
    assert platforms[id] in owned;
    assert platforms[id] in multiset(owned);
  }
}

=== FILE: records.dfy ===
/** The persisted records: the `Platform` registration, the `Client`
    registration of the split-record design, the key-holding client of the
    JWK Set and key-management pages, and the signed-in user. The source's
    snapshots disagree on field names; each field here stands for the one a
    handler reads, under the name the record class gives it. */
module Records {
  import opened Common
  import Sorting

  /** A signed-in user as the identity store returns it. */
  datatype User = User(id: string)

  /** `Platform`: one trusted LTI platform and the tool's credentials with it.
      `owner` is the `UserId` of the user who registered it. */
  datatype Platform = Platform(
    id: int,
    name: string,
    issuer: string,
    authorizeUrl: string,
    accessTokenUrl: Option<string>,
    jwkSetUrl: string,
    clientId: string,
    keyId: string,
    privateKey: string,
    publicKey: Option<string>,
    clientSecret: string,
    owner: Option<string>)

  /** `Client`: the per-platform tool registration of the split design. */
  datatype Client = Client(
    id: int,
    name: string,
    clientId: string,
    issuer: string,
    accessTokenUrl: string,
    jsonWebKeysUrl: string,
    userId: Option<string>)

  /** The tool's own client with its signing keys, as the JWK Set endpoint and
      the key-management page see it. */
  datatype KeyedClient = KeyedClient(
    id: int,
    clientId: string,
    keyId: string,
    privateKey: Option<string>,
    publicKey: Option<string>)

  /** A table keyed by primary key. */
  type Table<T> = map<int, T>

  /** The ids of the platforms registered under `issuer`. */
  function IdsWithIssuer(platforms: Table<Platform>, issuer: string): set<int> {
    set id | id in platforms && platforms[id].issuer == issuer
  }

  /** `GetPlatformByIssuerAsync`: the platform registered under `issuer`.
      Registration keeps issuers unique, but an edit can repeat one; should
      two share an issuer, the lowest id is taken. */
  function FindByIssuer(platforms: Table<Platform>, issuer: string): (r: Option<Platform>)
    ensures r.None? <==> forall id :: id in platforms ==> platforms[id].issuer != issuer
    ensures r.Some? ==> r.value in platforms.Values && r.value.issuer == issuer
  {
    var ids := IdsWithIssuer(platforms, issuer);
    assert forall id :: id in platforms && platforms[id].issuer == issuer ==> id in ids;
    if ids == {} then
      None
    else
      var id := Sorting.Least(ids);
      Some(platforms[id])
  }

  /** No two registered platforms share an issuer. */
  ghost predicate UniqueIssuers(platforms: Table<Platform>) {
    forall a, b :: a in platforms && b in platforms && a != b ==>
      platforms[a].issuer != platforms[b].issuer
  }

  /** With unique issuers the lookup returns the one platform of that issuer. */
  lemma FindByIssuerUnique(platforms: Table<Platform>, id: int)
    requires UniqueIssuers(platforms) && id in platforms
    ensures FindByIssuer(platforms, platforms[id].issuer) == Some(platforms[id])
  {
    var ids := IdsWithIssuer(platforms, platforms[id].issuer);
    assert id in ids;
    assert forall x :: x in ids ==> x == id;
  }
}

=== FILE: registry.dfy ===
/** What the owner-scoped registration pages (Platforms, Clients) have in
    common: the result of a handler, the table it leaves behind, the
    "find by id, then check the owner" gate, the delete handler, and the
    listing of one user's records. Records of type `T` carry an owner,
    read by the `owner` function each page passes in. */
module Registry {
  import opened Common
  import opened Records
  import Sorting

  /** The action result of a handler: 404, the page with its view model, a
      redirect to the list, or an exception the handler does not catch. */
  datatype Outcome<V> = NotFound | Page(view: V) | RedirectToIndex | Crash

  /** A handler's outcome and the table after it. */
  datatype Handled<T, V> = Handled(outcome: Outcome<V>, table: Table<T>)

  /** The key the database gives a new row: one past the largest key. */
  function FreshId<T>(t: Table<T>): (r: int)
    ensures r !in t && r > 0
    ensures forall id :: id in t ==> id < r
  {
    var ids := Sorting.Ascending(t.Keys);
    if |ids| == 0 then 1
    else
      assert forall k :: 0 <= k < |ids| ==> ids[k] <= ids[|ids| - 1] by {
        forall k | 0 <= k < |ids| ensures ids[k] <= ids[|ids| - 1] {
          if k < |ids| - 1 {
            assert ids[k] < ids[|ids| - 1];
          }
        }
      }
      if ids[|ids| - 1] < 0 then 1 else ids[|ids| - 1] + 1
  }

  /** The signed-in user owns the record. */
  predicate Owns<T>(user: User, record: T, owner: T -> Option<string>) {
    owner(record) == Some(user.id)
  }

  /** The GET gate of the Edit and Details pages: no id or no such record is
      404; a missing user is dereferenced (`user.Id`) and throws; a record
      of another owner is 404; otherwise the record is shown. */
  function Gate<T>(id: Option<int>, t: Table<T>, user: Option<User>, owner: T -> Option<string>): (r: Outcome<T>)
    ensures r == NotFound <==>
      id.None? || id.value !in t || (user.Some? && !Owns(user.value, t[id.value], owner))
    ensures r == Crash <==> id.Some? && id.value in t && user.None?
    ensures r.Page? ==> id.Some? && id.value in t && r.view == t[id.value]
                        && user.Some? && Owns(user.value, r.view, owner)
    ensures !r.RedirectToIndex?
  {
    if id.None? then NotFound
    else if id.value !in t then NotFound
    else if user.None? then Crash
    else if owner(t[id.value]) != Some(user.value.id) then NotFound
    else Page(t[id.value])
  }

  /** The POST of a Delete page: no id is 404; otherwise the record with
      that id, if any, is removed, whoever owns it, and the browser goes
      back to the list. */
  function DeletePost<T>(id: Option<int>, t: Table<T>): (h: Handled<T, ()>)
    ensures id.None? ==> h == Handled(NotFound, t)
    ensures id.Some? ==> h.outcome == RedirectToIndex
    ensures id.Some? ==> h.table.Keys == t.Keys - {id.value}
    ensures forall k :: k in h.table ==> k in t && h.table[k] == t[k]
  {
    if id.None? then Handled(NotFound, t)
    else if id.value in t then Handled(RedirectToIndex, t - {id.value})
    else Handled(RedirectToIndex, t)
  }

  /** Deleting an id that is not there changes nothing; deleting twice is
      deleting once. */
  lemma DeleteAbsentIsNoOp<T>(id: int, t: Table<T>)
    ensures id !in t ==> DeletePost(Some(id), t) == Handled(RedirectToIndex, t)
    ensures DeletePost(Some(id), DeletePost(Some(id), t).table) == DeletePost(Some(id), t)
  {
  }

  /** The keys of the records `userId` owns. */
  function OwnedIds<T>(t: Table<T>, owner: T -> Option<string>, userId: string): (s: set<int>)
    ensures forall id :: id in s <==> id in t && owner(t[id]) == Some(userId)
  {
    set id | id in t && owner(t[id]) == Some(userId)
  }

  /** `Where(c => c.UserId == user.Id)`: the records `userId` owns, in key
      order (the order the database returns rows in is not specified; key
      order stands for it). */
  function ListOwned<T>(t: Table<T>, owner: T -> Option<string>, userId: string): (r: seq<T>)
    ensures |r| == |OwnedIds(t, owner, userId)|
    ensures forall i :: 0 <= i < |r| ==> owner(r[i]) == Some(userId)
    ensures forall i :: 0 <= i < |r| ==> exists id :: id in t && t[id] == r[i]
    ensures forall id :: id in t && owner(t[id]) == Some(userId) ==> t[id] in r
  {
    var owned := OwnedIds(t, owner, userId);
    var ids := Sorting.Ascending(owned);
    assert forall k :: 0 <= k < |ids| ==> ids[k] in owned;
    var r := seq(|ids|, k requires 0 <= k < |ids| => t[ids[k]]);
    assert forall i :: 0 <= i < |r| ==> owner(r[i]) == Some(userId) by {
      forall i | 0 <= i < |r| ensures owner(r[i]) == Some(userId) {
        assert ids[i] in owned && r[i] == t[ids[i]];
      }
    }
    assert forall i :: 0 <= i < |r| ==> exists id :: id in t && t[id] == r[i] by {
      forall i | 0 <= i < |r| ensures exists id :: id in t && t[id] == r[i] {
        assert ids[i] in t && t[ids[i]] == r[i];
      }
    }
    assert forall id :: id in t && owner(t[id]) == Some(userId) ==> t[id] in r by {
      forall id | id in t && owner(t[id]) == Some(userId) ensures t[id] in r {
        assert id in owned;
        assert id in ids;
        var k :| 0 <= k < |ids| && ids[k] == id;
        assert r[k] == t[id];
      }
    }
    r
  }
}

=== FILE: sorting.dfy ===
/** The ordering utilities the listings need: LINQ's `OrderBy` as an
    insertion sort under a total preorder, and the least key of a table. */
module Sorting {

  /** `le` is a total preorder: the shape of any `OrderBy` key comparison. */
  ghost predicate TotalPreorder<T(!new)>(le: (T, T) -> bool) {
    && (forall a, b :: le(a, b) || le(b, a))
    && (forall a, b, c :: le(a, b) && le(b, c) ==> le(a, c))
  }

  ghost predicate Sorted<T>(xs: seq<T>, le: (T, T) -> bool) {
    forall i, j :: 0 <= i < j < |xs| ==> le(xs[i], xs[j])
  }

  /** Puts `x` in front of the first element it sorts before or equal to. */
  function Insert<T>(x: T, xs: seq<T>, le: (T, T) -> bool): (r: seq<T>)
    ensures multiset(r) == multiset(xs) + multiset{x}
    ensures |r| == |xs| + 1
    decreases |xs|
  {
    if |xs| == 0 || le(x, xs[0]) then [x] + xs
    else
      assert xs == [xs[0]] + xs[1..];
      [xs[0]] + Insert(x, xs[1..], le)
  }

  lemma {:induction false} InsertSorted<T(!new)>(x: T, xs: seq<T>, le: (T, T) -> bool)
    requires TotalPreorder(le) && Sorted(xs, le)
    ensures Sorted(Insert(x, xs, le), le)
    decreases |xs|
  {
    if |xs| > 0 && !le(x, xs[0]) {
      InsertSorted(x, xs[1..], le);
      var r := Insert(x, xs, le);
      var tail := Insert(x, xs[1..], le);
      assert r == [xs[0]] + tail;
      forall k | 0 <= k < |tail|
        ensures le(xs[0], tail[k])
      {
        assert tail[k] in multiset(tail);
        assert tail[k] in multiset(xs[1..]) + multiset{x};
        if tail[k] in multiset(xs[1..]) {
          var m :| 0 <= m < |xs[1..]| && xs[1..][m] == tail[k];
          assert xs[1..][m] == xs[m + 1];
        } else {
          assert tail[k] == x;
        }
      }
    }
  }

  /** `OrderBy(key)`: a permutation of the input that is sorted by `le`. */
  function SortBy<T(!new)>(xs: seq<T>, le: (T, T) -> bool): (r: seq<T>)
    requires TotalPreorder(le)
    ensures multiset(r) == multiset(xs)
    ensures Sorted(r, le)
    decreases |xs|
  {
    if |xs| == 0 then []
    else
      assert xs == [xs[0]] + xs[1..];
      var rest := SortBy(xs[1..], le);
      InsertSorted(xs[0], rest, le);
      Insert(xs[0], rest, le)
  }

  /** A set that is not empty has a member. */
  lemma NonEmptyHasMember(s: set<int>)
    ensures s != {} ==> exists y :: y in s
  {
    assert (forall x :: x !in s) ==> s == {};
  }

  /** A finite non-empty set of integers has a least element. */
  lemma {:induction false} HasLeast(s: set<int>)
    requires s != {}
    ensures exists m :: m in s && forall x :: x in s ==> m <= x
    decreases |s|
  {
    NonEmptyHasMember(s);
    var y :| y in s;
    var rest := s - {y};
    assert forall x :: x in s ==> x == y || x in rest;
    if rest == {} {
      assert forall x :: x in s ==> x == y;
    } else {
      HasLeast(rest);
      var m :| m in rest && forall x :: x in rest ==> m <= x;
      var least := if y < m then y else m;
      assert least in s && forall x :: x in s ==> least <= x;
    }
  }

  /** The least element of a finite non-empty set of integers. */
  function Least(s: set<int>): (m: int)
    requires s != {}
    ensures m in s && forall x :: x in s ==> m <= x
  {
    HasLeast(s);
    var m :| m in s && forall x :: x in s ==> m <= x;
    m
  }

  /** The elements of a finite set of integers in ascending order. */
  function Ascending(s: set<int>): (r: seq<int>)
    ensures |r| == |s|
    ensures forall x :: x in s <==> x in r
    ensures forall i, j :: 0 <= i < j < |r| ==> r[i] < r[j]
    decreases |s|
  {
    if s == {} then []
    else
      var m := Least(s);
      var rest := Ascending(s - {m});
      [m] + rest
  }
}

=== FILE: state_store.dfy ===
/** The nonce/state table of `StateDbContext`: `AddState` inserts a row,
    `GetState` finds a row by id and deletes it before returning it. The
    table is a map from row id to row value. */
module StateStore {
  import opened Common

  type Store = map<string, string>

  /** A row of the table. */
  datatype State = State(id: string, value: string)

  /** Entries under ids other than `id` are the same in both stores. */
  ghost predicate SameElsewhere(a: Store, b: Store, id: string) {
    forall k :: k != id ==> (k in a <==> k in b) && (k in a ==> a[k] == b[k])
  }

  /** `AddState(id, value)`. The id must be new: inserting a duplicate key
      fails inside the database layer, and the tool never relies on it. */
  function AddState(store: Store, id: string, value: string): (r: Store)
    requires id !in store
    ensures id in r && r[id] == value
    ensures SameElsewhere(store, r, id)
    ensures |r| == |store| + 1
  {
    store[id := value]
  }

  /** `GetState(id)`: the row with that id, which is removed from the table;
      `None` (the C# `null`) and an untouched table when there is none. */
  function GetState(store: Store, id: string): (r: (Option<State>, Store))
    ensures id !in r.1
    ensures SameElsewhere(store, r.1, id)
    ensures r.0.Some? <==> id in store
    ensures r.0.Some? ==> r.0.value == State(id, store[id]) && |r.1| == |store| - 1
    ensures r.0.None? ==> r.1 == store
  {
    if id in store then
      var rest := map k | k in store && k != id :: store[k];
      assert rest.Keys == store.Keys - {id};
      (Some(State(id, store[id])), rest)
    else
      (None, store)
  }

  /** Taking what was just added returns it and restores the table. */
  lemma AddThenGet(store: Store, id: string, value: string)
    requires id !in store
    ensures GetState(AddState(store, id, value), id) == (Some(State(id, value)), store)
  {
    var (got, after) := GetState(AddState(store, id, value), id);
    assert after == store;
  }

  /** A taken row cannot be taken again. */
  lemma GetIsSingleUse(store: Store, id: string)
    ensures GetState(GetState(store, id).1, id).0 == None
  {
  }

  /** An operation on the table, as a request handler performs it. */
  datatype Op = Add(id: string, value: string) | Take(id: string)

  /** Every `Add` in the trace inserts an id absent at that point. */
  predicate WellFormed(store: Store, ops: seq<Op>)
    decreases |ops|
  {
    |ops| == 0 ||
    match ops[0]
    case Add(id, v) => id !in store && WellFormed(AddState(store, id, v), ops[1..])
    case Take(id) => WellFormed(GetState(store, id).1, ops[1..])
  }

  /** The number of `Take(id)` operations in the trace that found a row. */
  function SuccessfulTakes(store: Store, ops: seq<Op>, id: string): nat
    requires WellFormed(store, ops)
    decreases |ops|
  {
    if |ops| == 0 then 0
    else match ops[0]
      case Add(i, v) => SuccessfulTakes(AddState(store, i, v), ops[1..], id)
      case Take(i) =>
        var (got, next) := GetState(store, i);
        (if i == id && got.Some? then 1 else 0) + SuccessfulTakes(next, ops[1..], id)
  }

  /** The number of `Add(id, _)` operations in the trace. */
  function Adds(ops: seq<Op>, id: string): nat
    decreases |ops|
  {
    if |ops| == 0 then 0
    else (if ops[0].Add? && ops[0].id == id then 1 else 0) + Adds(ops[1..], id)
  }

  /** Single use over any run: the rows found under an id are never more than
      the rows put there, counting one already present at the start. */
  lemma {:induction false} TakesBoundedByAdds(store: Store, ops: seq<Op>, id: string)
    requires WellFormed(store, ops)
    ensures SuccessfulTakes(store, ops, id) + (if id in store then 0 else 1)
            <= Adds(ops, id) + 1
    decreases |ops|
  {
    if |ops| > 0 {
      match ops[0]
      case Add(i, v) =>
        TakesBoundedByAdds(AddState(store, i, v), ops[1..], id);
      case Take(i) =>
        TakesBoundedByAdds(GetState(store, i).1, ops[1..], id);
    }
  }
}

=== FILE: text.dfy ===
/** String operations the tool performs itself: `String.Replace` as used to
    normalise pasted PEM keys, and the decimal rendering of an `int` that
    string interpolation performs. */
module Text {

  /** `pat` occurs in `s` starting at index `i`. */
  predicate MatchAt(s: string, pat: string, i: int) {
    0 <= i && i + |pat| <= |s| && s[i..i + |pat|] == pat
  }

  /** `pat` occurs somewhere in `s`. */
  predicate Occurs(s: string, pat: string) {
    exists i :: 0 <= i <= |s| - |pat| && MatchAt(s, pat, i)
  }

  /** `String.Replace(pat, rep)`: scans left to right and replaces every
      non-overlapping occurrence of `pat`; after a replacement the scan
      resumes behind the replaced occurrence. */
  function Replace(s: string, pat: string, rep: string): (r: string)
    requires |pat| > 0
    ensures |rep| <= |pat| ==> |r| <= |s|
    ensures |rep| < |pat| ==> (|r| < |s| <==> Occurs(s, pat))
    decreases |s|
  {
    if |s| < |pat| then
      assert !Occurs(s, pat);
      s
    else if s[..|pat|] == pat then
      assert MatchAt(s, pat, 0);
      var tail := Replace(s[|pat|..], pat, rep);
      rep + tail
    else
      var tail := Replace(s[1..], pat, rep);
      OccursShift(s, pat);
      [s[0]] + tail
  }

  /** An occurrence in `s` that is not at the front is an occurrence in `s[1..]`. */
  lemma OccursShift(s: string, pat: string)
    requires |pat| > 0 && |s| >= |pat| && s[..|pat|] != pat
    ensures Occurs(s, pat) <==> Occurs(s[1..], pat)
  {
    if Occurs(s, pat) {
      var i :| 0 <= i <= |s| - |pat| && MatchAt(s, pat, i);
      assert i != 0 by { assert s[0..|pat|] == s[..|pat|]; }
      assert s[1..][i - 1..i - 1 + |pat|] == s[i..i + |pat|];
      assert MatchAt(s[1..], pat, i - 1);
    }
    if Occurs(s[1..], pat) {
      var j :| 0 <= j <= |s[1..]| - |pat| && MatchAt(s[1..], pat, j);
      assert s[j + 1..j + 1 + |pat|] == s[1..][j..j + |pat|];
      assert MatchAt(s, pat, j + 1);
    }
  }

  /** Replacing a pattern that does not occur changes nothing. */
  lemma {:induction false} ReplaceAbsent(s: string, pat: string, rep: string)
    requires |pat| > 0 && !Occurs(s, pat)
    ensures Replace(s, pat, rep) == s
    decreases |s|
  {
    if |s| < |pat| {
    } else {
      assert !MatchAt(s, pat, 0);
      assert s[0..|pat|] == s[..|pat|];
      OccursShift(s, pat);
      ReplaceAbsent(s[1..], pat, rep);
    }
  }

  /** One step of the left-to-right scan at index `i`. */
  lemma ReplaceStep(s: string, pat: string, rep: string, i: nat)
    requires |pat| > 0 && i < |s|
    ensures MatchAt(s, pat, i) ==>
      Replace(s[i..], pat, rep) == rep + Replace(s[i + |pat|..], pat, rep)
    ensures !MatchAt(s, pat, i) ==>
      Replace(s[i..], pat, rep) == [s[i]] + Replace(s[i + 1..], pat, rep)
  {
    var t := s[i..];
    assert t[1..] == s[i + 1..];
    if MatchAt(s, pat, i) {
      assert t[..|pat|] == s[i..i + |pat|];
      assert t[|pat|..] == s[i + |pat|..];
    } else if |t| >= |pat| {
      assert t[..|pat|] == s[i..i + |pat|];
    } else {
      assert !Occurs(s[i + 1..], pat);
      ReplaceAbsent(s[i + 1..], pat, rep);
      assert t == [s[i]] + s[i + 1..];
    }
  }

  /** The scan's running result stays a prefix of the full replacement. */
  lemma ScanStep(s: string, pat: string, rep: string, done: string, i: nat)
    requires |pat| > 0 && i < |s|
    requires done + Replace(s[i..], pat, rep) == Replace(s, pat, rep)
    ensures MatchAt(s, pat, i) ==>
      (done + rep) + Replace(s[i + |pat|..], pat, rep) == Replace(s, pat, rep)
    ensures !MatchAt(s, pat, i) ==>
      (done + [s[i]]) + Replace(s[i + 1..], pat, rep) == Replace(s, pat, rep)
  {
    ReplaceStep(s, pat, rep, i);
  }

  const CrLf: string := "\r\n"
  const BlankLine: string := "\r\n\r\n"

  /** The PEM normalisation of the key-management page: every "\r\n\r\n"
      becomes "\r\n", found left to right without overlap. */
  function NormalizePem(key: string): (r: string)
    ensures |r| <= |key|
    ensures |r| == |key| <==> !Occurs(key, BlankLine)
    ensures !Occurs(key, BlankLine) ==> r == key
  {
    assert !Occurs(key, BlankLine) ==> Replace(key, BlankLine, CrLf) == key by {
      if !Occurs(key, BlankLine) {
        ReplaceAbsent(key, BlankLine, CrLf);
      }
    }
    Replace(key, BlankLine, CrLf)
  }

  /** The normalisation removes one blank line per occurrence it finds but is
      not idempotent: three line breaks in a row become two, which still hold
      a blank line. */
  lemma NormalizePemNotIdempotent()
    ensures NormalizePem("\r\n\r\n\r\n") == BlankLine
    ensures NormalizePem(NormalizePem("\r\n\r\n\r\n")) == CrLf
  {
    var s := "\r\n\r\n\r\n";
    assert s[..4] == BlankLine;
    assert s[4..] == CrLf;
    assert MatchAt(s, BlankLine, 0);
    assert MatchAt(BlankLine, BlankLine, 0);
    assert BlankLine[..4] == BlankLine;
    assert BlankLine[4..] == "";
  }

  /** The same normalisation as the left-to-right scan `String.Replace`
      performs, one character or one occurrence at a time. */
  method NormalizePemScan(key: string) returns (r: string)
    ensures r == NormalizePem(key)
  {
    r := "";
    var i := 0;
    assert key[0..] == key;
    while i < |key|
      invariant 0 <= i <= |key|
      invariant r + Replace(key[i..], BlankLine, CrLf) == Replace(key, BlankLine, CrLf)
      decreases |key| - i
    {
      ScanStep(key, BlankLine, CrLf, r, i);
      if MatchAt(key, BlankLine, i) {
        r := r + CrLf;
        i := i + |BlankLine|;
      } else {
        r := r + [key[i]];
        i := i + 1;
      }
    }
    assert key[i..] == "";
  }

  /** A decimal digit as a character. */
  function DigitChar(d: nat): (c: char)
    requires d < 10
    ensures '0' <= c <= '9' && c as int - '0' as int == d
  {
    (('0' as int) + d) as char
  }

  predicate IsDigits(s: string) {
    forall i :: 0 <= i < |s| ==> '0' <= s[i] <= '9'
  }

  /** `int.ToString()` for a non-negative value: its decimal digits without
      leading zeros. */
  function NatToString(n: nat): (r: string)
    ensures |r| > 0 && IsDigits(r)
    ensures |r| > 1 ==> r[0] != '0'
    decreases n
  {
    if n < 10 then [DigitChar(n)] else NatToString(n / 10) + [DigitChar(n % 10)]
  }

  /** Reads a string of decimal digits back as a number. */
  function ParseDigits(s: string): nat
    requires IsDigits(s)
  {
    if |s| == 0 then 0
    else ParseDigits(s[..|s| - 1]) * 10 + (s[|s| - 1] as int - '0' as int)
  }

  /** Decimal rendering loses nothing: parsing it gives the number back. */
  lemma {:induction false} ParseNatToString(n: nat)
    ensures ParseDigits(NatToString(n)) == n
    decreases n
  {
    if n >= 10 {
      var s := NatToString(n);
      assert s[..|s| - 1] == NatToString(n / 10);
      ParseNatToString(n / 10);
    }
  }

  /** Distinct numbers render as distinct strings. */
  lemma NatToStringInjective(m: nat, n: nat)
    ensures NatToString(m) == NatToString(n) ==> m == n
  {
    ParseNatToString(m);
    ParseNatToString(n);
  }

  /** `string.Join(sep, parts)`. */
  function Join(parts: seq<string>, sep: char): string
    decreases |parts|
  {
    if |parts| == 0 then ""
    else if |parts| == 1 then parts[0]
    else parts[0] + [sep] + Join(parts[1..], sep)
  }

  /** `s.Split(sep)`: the pieces between separators, empty ones included. */
  function Split(s: string, sep: char): (r: seq<string>)
    ensures |r| > 0
    decreases |s|
  {
    if |s| == 0 then [""]
    else if s[0] == sep then [""] + Split(s[1..], sep)
    else
      var rest := Split(s[1..], sep);
      [[s[0]] + rest[0]] + rest[1..]
  }

  /** A piece with no separator, followed by a separator and more text. */
  lemma {:induction false} SplitPiece(p: string, t: string, sep: char)
    requires sep !in p
    ensures Split(p + [sep] + t, sep) == [p] + Split(t, sep)
    ensures Split(p, sep) == [p]
    decreases |p|
  {
    if |p| == 0 {
      assert p + [sep] + t == [sep] + t;
      assert ([sep] + t)[1..] == t;
    } else {
      assert (p + [sep] + t)[1..] == p[1..] + [sep] + t;
      assert (p + [sep] + t)[0] == p[0];
      SplitPiece(p[1..], t, sep);
      assert [p[0]] + p[1..] == p;
    }
  }

  /** Splitting a join at the separator gives the parts back, provided none
      of them contains the separator. */
  lemma {:induction false} SplitJoin(parts: seq<string>, sep: char)
    requires |parts| > 0
    requires forall i :: 0 <= i < |parts| ==> sep !in parts[i]
    ensures Split(Join(parts, sep), sep) == parts
    decreases |parts|
  {
    SplitPiece(parts[0], "", sep);
    if |parts| > 1 {
      SplitJoin(parts[1..], sep);
      SplitPiece(parts[0], Join(parts[1..], sep), sep);
      assert parts == [parts[0]] + parts[1..];
    }
  }
}

=== FILE: token_request.dfy ===
/** `RequestClientCredentialsWithSignedJwtAsync`: the form fields of a
    client-credentials token request (section 4.4 of RFC 6749) whose client
    authenticates with a signed JWT (section 2.2 of RFC 7523). */
module TokenRequest {
  import opened Common

  const GrantType := "grant_type"
  const ClientCredentials := "client_credentials"
  const ClientAssertionType := "client_assertion_type"
  /** The assertion type URN of section 2.2 of RFC 7523. */
  const JwtBearer := "urn:ietf:params:oauth:client-assertion-type:jwt-bearer"
  const ClientAssertion := "client_assertion"
  const Scope := "scope"

  /** The field dictionary before the merge with `extra`, in insertion order. */
  function Fields(jwt: string, scope: Option<string>): (fields: seq<(string, string)>)
    ensures Lookup(fields, GrantType) == Some(ClientCredentials)
    ensures Lookup(fields, ClientAssertionType) == Some(JwtBearer)
    ensures Lookup(fields, ClientAssertion) == Some(jwt)
    ensures Lookup(fields, Scope).Some? <==> !IsNullOrEmpty(scope)
    ensures Lookup(fields, Scope).Some? ==> Lookup(fields, Scope) == scope
    ensures Keys(fields) == {GrantType, ClientAssertionType, ClientAssertion}
                            + (if IsNullOrEmpty(scope) then {} else {Scope})
  {
    var base := [(GrantType, ClientCredentials), (ClientAssertionType, JwtBearer), (ClientAssertion, jwt)];
    LookupFirst(base, 0);
    LookupFirst(base, 1);
    assert base[0].0 != base[2].0 && base[1].0 != base[2].0;
    LookupFirst(base, 2);
    if IsNullOrEmpty(scope) then
      base
    else
      var fields := base + [(Scope, scope.value)];
      assert fields[..3] == base;
      LookupFirst(fields, 0);
      LookupFirst(fields, 1);
      LookupFirst(fields, 2);
      assert forall j :: 0 <= j < 3 ==> fields[j].0 != fields[3].0;
      LookupFirst(fields, 3);
      fields
  }

  /** The dictionary never holds a name twice, so its `Add` calls cannot
      throw: three fields, plus `scope` when one is given. */
  lemma FieldsNamesDistinct(jwt: string, scope: Option<string>)
    ensures UniqueKeys(Fields(jwt, scope))
    ensures |Fields(jwt, scope)| == if IsNullOrEmpty(scope) then 3 else 4
  {
    var f := Fields(jwt, scope);
    assert f[0].0 == GrantType && f[1].0 == ClientAssertionType && f[2].0 == ClientAssertion;
    assert GrantType[0] != ClientAssertionType[0] && GrantType[0] != ClientAssertion[0];
    assert |ClientAssertionType| != |ClientAssertion|;
    if !IsNullOrEmpty(scope) {
      assert f[3].0 == Scope;
      assert Scope[0] != GrantType[0] && Scope[0] != ClientAssertion[0];
    }
  }
}
